=== FILE: README.md ===
# DNSChat in Dafny

DNSChat hides an encrypted chat inside DNS queries. On the sending side
(`launch`, dnschat.py), each message is handled in four steps:

1. It is encrypted and hex-encoded.
2. The loop shrinks its character limit until the name fits:
   - every name must stay under 253 characters;
   - every label must stay within 63 characters.
3. The ciphertext is cut into chunks of that size.
4. One query is sent per chunk, named `id.seqid.seqno.total.chunk.domain`.

On the receiving side, `ChatListen.process_pkt` sees every captured DNS query:

- It splits the name on dots.
- It drops the query when:
  - the sequence-id label is not decimal;
  - or the name carries its own id.
- Otherwise it buffers the chunk under the key `"seq" + seqid`. A name with
  fewer than five labels, or whose first label is not an integer, raises
  instead and ends the listener.
- Once the number of distinct indices equals the total announced by the first fragment:
  - it joins the chunks in integer index order;
  - it decrypts the result once;
  - it shows the message, or a warning, or ends the listener: a decryption
    fault, a JSON value that is not an object, or an object without `t`, `f`
    or `m` raises.

This project models both halves as pure functions and proves what they
promise, separately and together.

Modules:

- `PyText`: the Python text primitives the code relies on:
  - `str.split('.')` and its inverse;
  - `str(n)`;
  - `int(s)`, with its whitespace, sign and underscore rules;
  - the `^\d+$` search.
- `PyDict`: an insertion-ordered `dict`.
- `IndexSort`:
  - the dict's keys as integers;
  - the stable `sorted(..., key=int)`;
  - the concatenation of the chunks.
- `Identity`: the participant id.
  - With `-i` above zero the program keeps the option's text.
  - With `-i` zero or below it draws a number; with `-i` that is not an
    integer, start-up fails.
  - Left alone, it draws a number.
- `Outbound`:
  - the character-limit shrink loop;
  - chunking;
  - the query names;
  - the sequence-id increment;
  - the query loop.
- `Inbound`:
  - `process_pkt` as one step over the buffer, `map<string, Entry>`;
  - the capture loop as a fold that stops at the first exception.

    Every exception escapes `sniff` and ends the listener thread, so it is a `Crash`.
- `Channel`: sender and listener together, plus two discrepancies of the
  source: the `-i` text and the missing `'f'` (see "## Findings").

Three behaviours of the listener that the model keeps as the code has them
(all in `Inbound`):

- **Buffer key.** The buffer is keyed by the sequence id alone. Two senders
  that share a sequence id share one entry, and the first fragment fixes its
  user and total.
- **Decryption failure.** `decrypt` runs outside the `try`, so its failure
  ends the listener. Only a JSON parse failure produces the warning.
- **Fragments after output.** They are still stored, but never displayed
  again.

## Model

| member | source | states |
|---|---|---|
| PyText.Split | dnschat.py:63 | splitting on dots always yields at least one label |
| PyText.JoinSplit | dnschat.py:63 | joining the labels of any text with dots gives the text back |
| PyText.SplitDotFree | dnschat.py:63 | no label produced by splitting on dots holds a dot |
| PyText.SplitJoin | dnschat.py:285-286 | dot-free labels joined with dots split back into the same labels; the last part is split on |
| PyText.SplitLabel | dnschat.py:63 | a dot-free prefix and a dot split off as one label ahead of the rest |
| PyText.SplitTrailingDot | dnschat.py:63 | the root dot that ends a captured query name adds exactly one empty last label |
| PyText.JoinLength | dnschat.py:257-258 | a dotted name is as long as its labels plus one dot between each pair |
| PyText.NatToStrDigits | dnschat.py:68 | `str` of a sequence id consists of decimal digits only, so the `^\d+$` search accepts it |
| PyText.NatToStrShort | dnschat.py:257-258 | an index or total up to 999 prints in at most three digits, the room the `.99.1000.` projection reserves |
| PyText.ParseIntToStr | dnschat.py:75 | `int(str(n)) == n` for every integer, negative ones included |
| PyText.IntToStrInjective | dnschat.py:91 | different chunk indices give different dict keys |
| PyDict.Put | dnschat.py:91 | `d[k] = v`: the key set gains `k`; an existing key keeps the size; a new key is appended; every existing pair keeps its place in the order, so an overwritten key is not moved; `k` now maps to `v`; every other key keeps its value |
| PyDict.PutKeepsDistinct | dnschat.py:91 | assignment never duplicates a key |
| PyDict.KeysMembers | dnschat.py:91 | a key is in the dict exactly when some pair carries it |
| PyDict.DistinctKeysCount | dnschat.py:94 | for a dict without repeated keys, the length `len` reports is the number of distinct keys |
| IndexSort.IndexPieces | dnschat.py:97 | the dict's pairs with integer keys, in insertion order; exactly when every key parses with `int` |
| IndexSort.SortByIndex | dnschat.py:97 | the result is ordered by index and is a permutation of the pieces |
| IndexSort.InsertSorted | dnschat.py:97 | inserting into an index-ordered list keeps it index-ordered |
| IndexSort.InsertStrict | dnschat.py:97 | inserting a piece with a new index into a strictly ordered list keeps it strictly ordered |
| IndexSort.WithIndexInsert | dnschat.py:97 | the insertion step puts a piece after every earlier piece with the same index, for any list |
| IndexSort.SortIsStable | dnschat.py:97 | pieces with equal index keep their insertion order, as Python's stable `sorted` does |
| IndexSort.SortedArrangementUnique | dnschat.py:97 | there is one index-ordered arrangement of pieces with distinct indices |
| IndexSort.SortRecoversStrictOrder | dnschat.py:97-98 | sorting pieces with distinct indices yields the unique strictly ordered arrangement |
| IndexSort.SortDistinctIsStrict | dnschat.py:97 | sorting pieces with distinct indices yields a strictly ordered list |
| IndexSort.ArrivalOrderIrrelevant | dnschat.py:97-98 | two arrival orders of the same pieces with distinct indices sort and join identically |
| IndexSort.SortArrived | dnschat.py:97-98 | the chunks of a message arriving in any order sort back to indices 0, 1, ... |
| Identity.ChooseId | dnschat.py:175-184 | no `-i`: the random draw; `-i` that is not an integer: start-up fails; `-i` above zero: exactly its text is kept as the id; `-i` zero or below: the draw |
| Identity.ChooseIdFixed | dnschat.py:175-184 | the same choice keeping `int(arg)`: every chosen id is a positive number, and a positive option's value is that number |
| Identity.ChooseIdAgainstFixed | dnschat.py:175-184 | the code and the corrected selection fail on the same options and agree when the option is absent or not positive; for a positive option the code keeps text whose `int` is the corrected id, and that text never equals a sender's number, while the corrected id matches exactly its own number |
| Outbound.Shrink | dnschat.py:257-269 | the limit reached fits both bounds; it is lowered only by whole steps of 5 and only while it does not fit; it is the largest fitting limit of that ladder; the low warning fires exactly when the limit was lowered below 15 |
| Outbound.Chunks | dnschat.py:273-274 | a negative limit gives no chunks; a positive limit gives none exactly when the ciphertext is empty |
| Outbound.ChunksJoin | dnschat.py:273-274 | with a positive limit the chunks join back to the ciphertext |
| Outbound.ChunkSizes | dnschat.py:273-274 | every chunk is non-empty and at most the limit long; every chunk but the last is exactly the limit |
| Outbound.ChunkCount | dnschat.py:273-274 | the number of chunks is the ceiling of length over limit |
| Outbound.ChunkWindow | dnschat.py:273-274 | chunk k starts inside the ciphertext, at k steps of the limit, and runs for the limit or to the end |
| Outbound.ChunkAt | dnschat.py:273-274 | chunk k is the slice `[k*limit : k*limit + limit]` of the ciphertext |
| Outbound.ChunkIsHex | dnschat.py:273-274 | chunks of hex text are hex, hence dot-free labels |
| Outbound.SendMessage | dnschat.py:243-296 | a zero limit raises in `range`; otherwise the names number the chunk count, the limit never grows and fits, the session keeps id and domain, the sequence id goes up by one, and the low warning is reported |
| Outbound.SentNameLabels | dnschat.py:285-286 | name k splits into id, sequence id, `k`, the total, chunk k and the domain's labels |
| Outbound.NameWithinBudget | dnschat.py:257-260 | with at most 999 chunks every name stays under 253 characters and its chunk label within 63 |
| Outbound.SentChunksRebuild | dnschat.py:273-277 | the sent chunks join back to the ciphertext, one name per chunk |
| Outbound.QueriesIssued | dnschat.py:279-289 | the query loop as written asks for at most the names it was given |
| Outbound.DebugQueriesNothing | dnschat.py:279-289 | as written, with the debug flag set no name is queried; without it every name is, in order |
| Outbound.QueriesIssuedFixed | dnschat.py:279-289 | with the trace line printed on its own, a session queries, whatever the flag, exactly the names the as-written loop queries without `-v`: every name, in order |
| Inbound.Store | dnschat.py:83-91 | the fragment's key is present afterwards |
| Inbound.StoreFacts | dnschat.py:83-91 | an existing entry keeps its user, total and output mark; a new one takes this fragment's user and total and is not output; the index now holds the chunk; other indices and other keys are untouched |
| Inbound.AdmittedIsAccepted | dnschat.py:60-91 | an admitted packet is buffered under `"seq" + label 1` at index label 2 with total label 3 and chunk label 4 |
| Inbound.SettleCases | dnschat.py:94-121 | after a fragment is stored: a total that `int` rejects raises; an entry whose index count differs from its total, or that was already output, is reported stored with the buffer unchanged; a complete entry not yet output is reassembled, and an index that `int` rejects raises, otherwise it is concluded on the reassembled text; no other outcome occurs |
| Inbound.SettleFacts | dnschat.py:94-121 | a step that does not raise reports on its own key and changes at most that entry's output mark; a reported message or warning comes from an entry that holds as many indices as its total, was not output, and reassembles to the reported text |
| Inbound.ConcludeIgnoresBuffer | dnschat.py:100-121 | with decryption taken as a fixed function of the text, whether decryption and display raise, and what they report, depends only on that function's outcome for the reassembled text and on the key, not on the rest of the buffer |
| Inbound.ConcludeFacts | dnschat.py:100-121 | a decryption failure raises out of the listener (it runs before the `try`); a JSON parse failure is the one warning and marks the entry output; a JSON value that is not an object raises; an object is displayed with its `t`, `f` and `m` exactly when it has all three, otherwise it raises; a report carries the text and marks the entry output |
| Inbound.DroppedExactly | dnschat.py:60-76 | a packet leaves the buffer alone and reports nothing exactly when it is not a port-53 query, has a non-decimal sequence id, or carries our numeric id |
| Inbound.MalformedNameCrashes | dnschat.py:63-76 | a name that is neither dropped nor admitted ends the listener: fewer than five labels, or a first label `int` rejects |
| Inbound.OwnPacketsDropped | dnschat.py:74-76 | with a numeric id, a query whose first label parses to that id is ignored |
| Inbound.OnlyAdmittedCount | dnschat.py:60-91 | a packet that is not admitted either ends the listener or leaves the buffer unchanged |
| Inbound.FragmentLands | dnschat.py:83-91 | an admitted fragment changes only the entry of its sequence id, whoever sent it; the first fragment fixes user and total; the chunk is stored at its index; a repeated index overwrites without growing the entry |
| Inbound.KeyPreserved | dnschat.py:83-121 | a step never removes an entry or clears an output mark |
| Inbound.OutputIsFinal | dnschat.py:94 | an entry already output produces no further message or warning, and stays output |
| Inbound.SettleBuffer | dnschat.py:94-121 | the buffer after the completion check is the given one, at most with the key's output mark newly set when something is reported |
| Inbound.AcceptBuffer | dnschat.py:83-121 | the buffer after a fragment is the stored one, at most with its output mark set |
| Inbound.AcceptEmission | dnschat.py:94-121 | a message or warning is reported only when the entry holds as many indices as its total, was not output, and reassembles |
| Inbound.EmissionCompletesEntry | dnschat.py:94-121 | a reported message comes from an admitted packet that completed an entry that was not yet output; the reported text is the chunks in index order |
| Inbound.ListenSnoc | dnschat.py:60-121 | one more captured packet: a stopped listener stays stopped; otherwise the packet is processed against the buffer the earlier packets left |
| Inbound.ListenStep | dnschat.py:60-121 | a running listener whose next packet does not raise keeps running, with that step's buffer and one more report |
| Inbound.ListenRuns | dnschat.py:60-121 | if every packet in turn takes the buffer to the next one without raising, the listener ends running on the last buffer with the reports in order |
| Inbound.ListenEmissions | dnschat.py:94-121 | across any run, the reports for a key plus its initial output mark never exceed its final output mark |
| Inbound.AtMostOneEmission | dnschat.py:94-121 | any sequence of packets yields at most one message or warning per key, and none for a key already output |
| Inbound.StoreKeepsDistinct | dnschat.py:83-91 | storing a fragment keeps every entry's dict free of repeated indices |
| Inbound.StepKeepsDistinct | dnschat.py:60-121 | a packet that does not raise keeps every entry's dict free of repeated indices |
| Inbound.ListenKeepsDistinct | dnschat.py:60-121 | along any run still going, every entry's dict stays free of repeated indices |
| Inbound.ListenFromEmptyDistinct | dnschat.py:94 | starting from `{}`, every entry's dict has distinct indices, so its length is the number of indices received, as `len(entries)` counts them |
| Channel.AsQuery | dnschat.py:60-63 | a captured name is a port-53 query whose labels are the sent name's plus the root's empty label |
| Channel.SentWire | dnschat.py:285-286 | every name the loop sends is labelled as the listener reads it, and its chunks join back to the ciphertext |
| Channel.ArrivalAdmitted | dnschat.py:60-91 | every name of a foreign message is admitted and buffered under its own index, total and chunk |
| Channel.ArrivalStored | dnschat.py:83-91 | each new arrival appends its index and chunk to the entry of the arrivals before it |
| Channel.ArrivalIsStored | dnschat.py:83-94 | every arrival but the last is reported as stored |
| Channel.WirePrefix | dnschat.py:83-94 | the first j arrivals leave the entry with exactly those j chunks and report each as stored |
| Channel.FreshIndex | dnschat.py:91 | each arrival of a message brings an index that no earlier arrival carried, so the dict grows by one |
| Channel.DeliveredIndices | dnschat.py:97 | the keys of a delivered message parse back to its indices in arrival order |
| Channel.DeliveredReassembles | dnschat.py:97-98 | a complete set of chunks, in any arrival order, joins to the chunks in index order |
| Channel.WireComplete | dnschat.py:94-100 | the last arrival hands the joined chunks to decryption |
| Channel.DeliveredMessageReassembles | dnschat.py:243-296 | every name of a sent message captured in any order: n-1 stored reports, then decryption of exactly the sender's ciphertext |
| Channel.ArrivalOrderUnobservable | dnschat.py:94-121 | what the listener reports for a delivered message does not depend on the arrival order |
| Channel.SenderEnvelope | dnschat.py:247-251 | the envelope as the loop builds it carries only `t` and `m` |
| Channel.SenderEnvelopeFixed | dnschat.py:247-251 | the corrected envelope carries `t`, `f` and `m` |
| Channel.EnvelopeAsWrittenCrashes | dnschat.py:112-118 | an envelope without `f` ends the listener at the display line |
| Channel.EnvelopeFixedDisplays | dnschat.py:112-121 | an envelope with `f` is displayed with its time, sender and text, and its entry is marked output |
| Channel.DeliveredMessageUndecryptable | dnschat.py:94-100 | as written, when decryption of the rebuilt ciphertext fails, a message delivered intact leaves n-1 stored reports and then stops the listener with the decryption fault |
| Channel.DeliveredMessageHaltsListener | dnschat.py:247-255 | as written, a message delivered intact stops the other participant's listener instead of being displayed |
| Channel.DeliveredMessageDisplayed | dnschat.py:112-121 | with the corrected envelope, a delivered message is displayed exactly once, with the sender's id, after its other fragments are stored |
| Channel.OwnNamesDropped | dnschat.py:74-76 | a participant with a numeric id drops every name it sent itself |
| Channel.TextualNamesAdmitted | dnschat.py:74-76 | a participant whose id is text admits the names it sent itself |
| Channel.IdOptionAsWritten | dnschat.py:175-177 | `-i 7` keeps the text `"7"`, and the participant's own names pass the own-id check |
| Channel.IdOptionFixed | dnschat.py:175-177 | `-i 7` kept as the number 7 makes the participant drop its own names |

## Left out

- Encryption, decryption, `hexlify`/`unhexlify`, `json.dumps` and `json.loads`
  are not part of this model. On the sending side the ciphertext is an input
  (hex text). On the receiving side `decode` is a parameter that classifies
  the rebuilt text into four cases:
  - decryption raises;
  - the JSON parse fails;
  - the JSON value is not an object;
  - the JSON value is an object.
- One `decode` serves a whole listener run. In the source the listener reuses
  one AES-CFB object for every message (dnschat.py:135, 143), so decrypting a
  message depends on every decryption before it. The model treats decryption
  as a fixed function of the rebuilt text. `Inbound.ConcludeIgnoresBuffer` and
  `Channel.ArrivalOrderUnobservable` hold under that idealisation.
- As written, `unhexlify` runs twice: once at dnschat.py:100 and again inside
  `decrypt` at line 144. The bytes of GPG output are not hex text, so for a
  genuine message the second call raises, outside the `try`. In the model that
  is `decode` returning `DecryptError`, and the listener halts with
  `DecryptFault` (`Channel.DeliveredMessageUndecryptable`). The model does not fix which case `decode` returns for a
  given text, so the later outcomes (the warning, the `'f'` crash, the display)
  are stated for a `decode` that gets past decryption.
- The types of the envelope's members are not modelled, so the `TypeError`
  that a non-numeric `t` or a non-text `m` raises is not either. An object is
  displayed when it has `t`, `f` and `m`.
- Packet capture, the resolver, threads and the shutdown flag are not
  modelled. A captured packet is a record: whether it has a DNS question, its
  destination port, and its query name as text. A name that is not valid
  UTF-8 fails `decode()` in the source, and the model does not include that
  failure.
- The model has no packet loss or duplication between the halves.
  `Channel.DeliveredMessageReassembles` assumes every name arrives once, in
  some order. `Inbound.AtMostOneEmission` holds for any packet sequence,
  duplicates and strangers included.
- The `Channel` lemmas assume the capture holds only this message's names,
  with no other DNS traffic between them (`Channel.Captured`). Other traffic
  can change the outcome: a one-label query such as `com.` splits into two
  labels and ends the listener with `ShortName` before the message completes.
- Printing, `time.strftime` and the debug trace in the listener are left out.
  The trace (dnschat.py:79-80) reads `eles[3]` earlier than the code otherwise
  does, but a name with fewer than five labels raises at line 87 or 91 anyway,
  so leaving the trace out changes no outcome that matters here: the model
  still ends the listener on such a name. The sender's trace line is modelled by
  `Outbound.QueriesIssued`, because it changes what is sent.
- The random choices are parameters: the random id draw (from 1 to 99) and
  the initial sequence id.
- Argument parsing other than `-i`, and the prompts for domain and
  passphrase, are left out.
- Identity.ChooseId: takes a single `-i` option. The options loop handles a
  repeated `-i` in order, so a later option at or below zero keeps the earlier
  text and a later non-integer one raises; that sequence is not modelled.
- `PyText.ParseInt`: only ASCII digits and ASCII whitespace are modelled, not
  the other Unicode digits and spaces Python's `int` accepts. The `^\d+$`
  search likewise takes ASCII digits only.
- Outbound.NameWithinBudget: requires at most 999 chunks, because that is the
  room the source's projection reserves for index and total. Longer messages
  produce names the length check never saw.
- Outbound.SendMessage: reports the low-limit warning as a boolean and not as
  printed text. The total is `str(len(chunks))`, the same value that indexes
  the names.

## Findings

| source | as written | input that shows it | evidently intended | confidence | as-written member | corrected member |
|---|---|---|---|---|---|---|
| dnschat.py:175-177 | `-i` stores the option's text as the id, and line 75 compares an `int` with that text, so the comparison is never true | `-i 7`: the participant's own query `7.5.0.1.ab.example.com` passes the own-id check | keep `int(arg)`, so that the participant ignores its own queries | high, not executed | Channel.IdOptionAsWritten | Channel.IdOptionFixed |
| dnschat.py:247-251 | the envelope holds only `t` and `m`, but line 118 reads `obj['f']`, which raises `KeyError` and ends the listener thread | any message delivered intact whose envelope decrypts to `{"t": ..., "m": ...}`; such an input exists only once decryption works, because as written the double `unhexlify` (lines 100 and 144) raises first | put the sender's id under `f` in the envelope | medium, not executed | Channel.DeliveredMessageHaltsListener | Channel.DeliveredMessageDisplayed |
| dnschat.py:281-283 | the trace line adds text to the `None` that `print` returns; the bare `except` swallows the `TypeError` and skips the query | any message sent with `-v` | print the whole trace line, then query | high, not executed | Outbound.DebugQueriesNothing | Outbound.QueriesIssuedFixed |

=== FILE: channel.dfy ===
/**
  Both halves together: the names one participant's message loop sends,
  captured by another participant's listener in any order. The listener
  rebuilds the ciphertext exactly, reports every fragment but the last as
  stored, and hands the rebuilt text to decryption once.

  Two discrepancies between the halves are stated here as well: the id
  chosen with `-i` is kept as text, so a participant's own packets are not
  recognised as its own; and the envelope the message loop encrypts has no
  `'f'` member, which the listener reads when it displays a message.
 */
module Channel {
  import opened Wrappers
  import opened PyText
  import opened PyDict
  import opened IndexSort
  import opened Identity
  import opened Outbound
  import opened Inbound

  /**
    A sent name as the listener captures it: a DNS question to port 53
    whose name, in wire form, ends with the root's dot.
   */
  function AsQuery(name: string): (p: Packet)
    ensures IsDnsQuery(p) && Labels(p) == Split(name) + [""]
  {
    SplitTrailingDot(name);
    Packet(true, DnsPort, name + ".")
  }

  /** The names of one message, captured in the order `perm`. */
  function Captured(names: seq<string>, perm: seq<nat>): (r: seq<Packet>)
    requires IsArrivalOrder(perm, |names|)
    ensures |r| == |names|
    ensures forall j :: 0 <= j < |r| ==> r[j] == AsQuery(names[perm[j]])
  {
    seq(|names|, j requires 0 <= j < |names| => AsQuery(names[perm[j]]))
  }

  /** The fragment dict after the first `j` arrivals. */
  function Delivered(chunks: seq<string>, perm: seq<nat>, j: nat): (d: Dict)
    requires IsArrivalOrder(perm, |chunks|) && j <= |chunks|
    ensures |d| == j
    ensures forall i :: 0 <= i < j ==> d[i] == (IntToStr(perm[i]), chunks[perm[i]])
  {
    seq(j, i requires 0 <= i < j => (IntToStr(perm[i]), chunks[perm[i]]))
  }

  /** The listener's buffer after the first `j` arrivals of a message keyed `key`. */
  function Partial(buf: Buffer, key: string, user: string, chunks: seq<string>, perm: seq<nat>, j: nat): Buffer
    requires IsArrivalOrder(perm, |chunks|) && j <= |chunks|
  {
    if j == 0 then buf
    else buf[key := Entry(user, Delivered(chunks, perm, j), IntToStr(|chunks|), false)]
  }

  /** `n` copies of one event. */
  function Repeat(e: Event, n: nat): (r: seq<Event>)
    ensures |r| == n && forall i :: 0 <= i < n ==> r[i] == e
  {
    seq(n, _ => e)
  }

  /**
    One message as it travels: the sender's id label, the sequence-id
    label, the domain, the chunks and the names carrying them.
   */
  datatype Wire = Wire(user: string, sid: string, domain: string, chunks: seq<string>, names: seq<string>)

  /** Name `k` splits into id, sequence id, `k`, the total, chunk `k` and the domain's labels. */
  predicate Labelled(w: Wire) {
    && |w.names| == |w.chunks|
    && forall k {:trigger Split(w.names[k])} :: 0 <= k < |w.names| ==>
         Split(w.names[k]) == [w.user, w.sid, IntToStr(k), IntToStr(|w.names|), w.chunks[k]] + Split(w.domain)
  }

  /** The wire image of what `SendMessage` sent. */
  function WireOf(s: Session, ct: string): Wire
    requires SendMessage(s, ct).Sent?
  {
    Wire(IdText(s.id), IntToStr(s.seqid), s.domain, MessageChunks(s, ct), SendMessage(s, ct).names)
  }

  /**
    A message the listener can receive: the loop sent at least one name,
    the sender id is a dot-free integer that is not the listener's own,
    the ciphertext is hex, and nothing is buffered under its sequence id.
   */
  predicate Deliverable(s: Session, ct: string, me: OwnId, buf: Buffer) {
    && SendMessage(s, ct).Sent?
    && |SendMessage(s, ct).names| > 0
    && '.' !in IdText(s.id)
    && IsLowerHex(ct)
    && ParseInt(IdText(s.id)).Some?
    && !IsOwn(me, ParseInt(IdText(s.id)).value)
    && BufferKey(IntToStr(s.seqid)) !in buf
  }

  /** The same conditions on the wire image. */
  predicate Receivable(w: Wire, me: OwnId, buf: Buffer) {
    && Labelled(w)
    && |w.names| > 0
    && AllDigits(w.sid)
    && ParseInt(w.user).Some?
    && !IsOwn(me, ParseInt(w.user).value)
    && BufferKey(w.sid) !in buf
  }

  /** The buffer key every name of the message lands under. */
  function MessageKey(s: Session): string {
    BufferKey(IntToStr(s.seqid))
  }

  /** What the message loop sends is labelled as the listener expects, and its chunks rebuild the ciphertext. */
  lemma SentWire(s: Session, ct: string, me: OwnId, buf: Buffer)
    requires Deliverable(s, ct, me, buf)
    ensures Receivable(WireOf(s, ct), me, buf)
    ensures Flatten(WireOf(s, ct).chunks) == ct
  {
    var w := WireOf(s, ct);
    SentNameLabels(s, ct, 0);
    SentChunksRebuild(s, ct);
    NatToStrDigits(s.seqid);
    forall k | 0 <= k < |w.names|
      ensures Split(w.names[k]) == [w.user, w.sid, IntToStr(k), IntToStr(|w.names|), w.chunks[k]] + Split(w.domain)
    {
      SentNameLabels(s, ct, k);
    }
  }

  lemma {:induction false} ConcatChunks(s: seq<Piece>, chunks: seq<string>)
    requires |s| == |chunks|
    requires forall i :: 0 <= i < |s| ==> s[i].1 == chunks[i]
    ensures Concat(s) == Flatten(chunks)
    decreases |s|
  {
    if |s| > 0 {
      ConcatChunks(s[1..], chunks[1..]);
    }
  }

  /** The buffer after the first `j` arrivals of the message `w`. */
  function WirePartial(w: Wire, buf: Buffer, perm: seq<nat>, j: nat): Buffer
    requires IsArrivalOrder(perm, |w.chunks|) && j <= |w.chunks|
  {
    Partial(buf, BufferKey(w.sid), w.user, w.chunks, perm, j)
  }

  /** Every captured name of the message is admitted and goes to `Accept` with its own labels. */
  lemma ArrivalAdmitted(w: Wire, me: OwnId, decode: string -> Decoded, b: Buffer, k: nat)
    requires Labelled(w) && AllDigits(w.sid)
    requires ParseInt(w.user).Some? && !IsOwn(me, ParseInt(w.user).value)
    requires k < |w.names|
    ensures ProcessPkt(me, decode, b, AsQuery(w.names[k]))
         == Accept(decode, b, BufferKey(w.sid), w.user, IntToStr(k), IntToStr(|w.names|), w.chunks[k])
  {
    var pkt := AsQuery(w.names[k]);
    assert Labels(pkt) == [w.user, w.sid, IntToStr(k), IntToStr(|w.names|), w.chunks[k]] + (Split(w.domain) + [""]);
    assert Admitted(me, pkt);
    AdmittedIsAccepted(me, decode, b, pkt);
  }

  /** The `j`-th arrival brings an index none of the first `j` carried. */
  lemma FreshIndex(chunks: seq<string>, perm: seq<nat>, j: nat)
    requires IsArrivalOrder(perm, |chunks|) && j < |chunks|
    ensures IntToStr(perm[j]) !in Keys(Delivered(chunks, perm, j))
  {
    var d := Delivered(chunks, perm, j);
    forall i | 0 <= i < j
      ensures d[i].0 != IntToStr(perm[j])
    {
      IntToStrInjective(perm[i], perm[j]);
    }
    KeysMembers(d, IntToStr(perm[j]));
  }

  /** Storing the `j`-th arrival on top of the first `j` gives the first `j + 1`. */
  lemma ArrivalStored(w: Wire, buf: Buffer, perm: seq<nat>, j: nat)
    requires |w.names| == |w.chunks| && BufferKey(w.sid) !in buf
    requires IsArrivalOrder(perm, |w.chunks|) && j < |perm|
    ensures Store(WirePartial(w, buf, perm, j), BufferKey(w.sid), w.user,
                  IntToStr(perm[j]), IntToStr(|w.names|), w.chunks[perm[j]])
         == WirePartial(w, buf, perm, j + 1)
  {
    var key := BufferKey(w.sid);
    var seqno := IntToStr(perm[j]);
    var chunk := w.chunks[perm[j]];
    var d := Delivered(w.chunks, perm, j);
    FreshIndex(w.chunks, perm, j);
    var d' := Delivered(w.chunks, perm, j + 1);
    assert d' == d + [(seqno, chunk)];
    var before := WirePartial(w, buf, perm, j);
    var after := WirePartial(w, buf, perm, j + 1);
    assert after == buf[key := Entry(w.user, d', IntToStr(|w.chunks|), false)];
    if j == 0 {
      assert key !in before;
      assert Put([], seqno, chunk) == d';
    } else {
      assert before[key] == Entry(w.user, d, IntToStr(|w.chunks|), false);
      assert Put(d, seqno, chunk) == d';
    }
  }

  /** An arrival that is not the last one is stored and reported as stored. */
  lemma ArrivalIsStored(w: Wire, me: OwnId, decode: string -> Decoded,
                        buf: Buffer, perm: seq<nat>, j: nat)
    requires Receivable(w, me, buf)
    requires IsArrivalOrder(perm, |w.names|)
    requires j + 1 < |perm|
    ensures ProcessPkt(me, decode, WirePartial(w, buf, perm, j), AsQuery(w.names[perm[j]]))
         == Continue(WirePartial(w, buf, perm, j + 1), Stored(BufferKey(w.sid)))
  {
    var key := BufferKey(w.sid);
    var n := |w.names|;
    var prev := WirePartial(w, buf, perm, j);
    var next := WirePartial(w, buf, perm, j + 1);
    ArrivalAdmitted(w, me, decode, prev, perm[j]);
    ArrivalStored(w, buf, perm, j);
    ParseIntToStr(n);
    assert next[key].seqlen == IntToStr(n);
    assert |next[key].entries| == j + 1 < n;
  }

  /** Every arrival but the last is only stored. */
  lemma WirePrefix(w: Wire, me: OwnId, decode: string -> Decoded,
                    buf: Buffer, perm: seq<nat>, j: nat)
    requires Receivable(w, me, buf)
    requires IsArrivalOrder(perm, |w.names|)
    requires j < |perm|
    ensures Listen(me, decode, buf, Captured(w.names, perm)[..j])
         == Running(WirePartial(w, buf, perm, j), Repeat(Stored(BufferKey(w.sid)), j))
  {
    var key := BufferKey(w.sid);
    var pkts := Captured(w.names, perm)[..j];
    var bufs := seq(j + 1, i requires 0 <= i <= j => WirePartial(w, buf, perm, i));
    var events := Repeat(Stored(key), j);
    forall i | 0 <= i < j
      ensures ProcessPkt(me, decode, bufs[i], pkts[i]) == Continue(bufs[i + 1], events[i])
    {
      assert pkts[i] == AsQuery(w.names[perm[i]]);
      assert bufs[i] == WirePartial(w, buf, perm, i) && bufs[i + 1] == WirePartial(w, buf, perm, i + 1);
      assert events[i] == Stored(key);
      ArrivalIsStored(w, me, decode, buf, perm, i);
    }
    ListenRuns(me, decode, buf, pkts, bufs, events);
  }

  /** The keys of the delivered dict parse back to the arrival order's indices. */
  lemma DeliveredIndices(chunks: seq<string>, perm: seq<nat>)
    requires IsArrivalOrder(perm, |chunks|)
    ensures IndexPieces(Delivered(chunks, perm, |chunks|)) == Some(Arrived(chunks, perm))
  {
    var d := Delivered(chunks, perm, |chunks|);
    forall i | 0 <= i < |d|
      ensures ParseInt(d[i].0) == Some(perm[i] as int)
    {
      ParseIntToStr(perm[i]);
    }
    var r := IndexPieces(d);
    assert r.Some?;
    assert r.value == Arrived(chunks, perm);
  }

  /** All fragments in, the dict reassembles to the chunks in index order. */
  lemma DeliveredReassembles(chunks: seq<string>, perm: seq<nat>)
    requires IsArrivalOrder(perm, |chunks|)
    ensures Reassemble(Delivered(chunks, perm, |chunks|)) == Some(Flatten(chunks))
  {
    var d := Delivered(chunks, perm, |chunks|);
    var pieces := Arrived(chunks, perm);
    DeliveredIndices(chunks, perm);
    ReassembleOf(d, pieces);
    SortArrived(chunks, perm);
    ConcatNumbered(chunks);
  }

  lemma ConcatNumbered(chunks: seq<string>)
    ensures Concat(Numbered(chunks)) == Flatten(chunks)
  {
    var s := Numbered(chunks);
    assert forall i :: 0 <= i < |s| ==> s[i].1 == chunks[i];
    ConcatChunks(s, chunks);
  }

  /** The last arrival hands the joined chunks to decryption. */
  lemma WireComplete(w: Wire, me: OwnId, decode: string -> Decoded, buf: Buffer, perm: seq<nat>)
    requires Receivable(w, me, buf)
    requires IsArrivalOrder(perm, |w.names|)
    ensures var n := |perm|;
            var key := BufferKey(w.sid);
            && key in WirePartial(w, buf, perm, n)
            && Listen(me, decode, buf, Captured(w.names, perm))
               == Extend(Running(WirePartial(w, buf, perm, n - 1), Repeat(Stored(key), n - 1)),
                         Conclude(decode, WirePartial(w, buf, perm, n), key, Flatten(w.chunks)))
  {
    var n := |w.names|;
    var key := BufferKey(w.sid);
    var pkts := Captured(w.names, perm);
    WirePrefix(w, me, decode, buf, perm, n - 1);
    assert pkts[..n] == pkts;
    var prev := WirePartial(w, buf, perm, n - 1);
    var last := WirePartial(w, buf, perm, n);
    ArrivalAdmitted(w, me, decode, prev, perm[n - 1]);
    ArrivalStored(w, buf, perm, n - 1);
    assert last[key] == Entry(w.user, Delivered(w.chunks, perm, n), IntToStr(n), false);
    ParseIntToStr(n);
    DeliveredReassembles(w.chunks, perm);
    assert Accept(decode, prev, key, w.user, IntToStr(perm[n - 1]), IntToStr(n), w.chunks[perm[n - 1]])
        == Conclude(decode, last, key, Flatten(w.chunks));
  }

  /**
    The last arrival completes the message: the listener hands the exact
    ciphertext to decryption, after reporting every earlier fragment as
    stored, whatever order the names arrived in.
   */
  lemma DeliveredMessageReassembles(s: Session, ct: string, me: OwnId, decode: string -> Decoded,
                                    buf: Buffer, perm: seq<nat>)
    requires Deliverable(s, ct, me, buf)
    requires IsArrivalOrder(perm, |SendMessage(s, ct).names|)
    ensures var w := WireOf(s, ct);
            var n := |perm|;
            && MessageKey(s) in WirePartial(w, buf, perm, n)
            && Listen(me, decode, buf, Captured(SendMessage(s, ct).names, perm))
               == Extend(Running(WirePartial(w, buf, perm, n - 1), Repeat(Stored(MessageKey(s)), n - 1)),
                         Conclude(decode, WirePartial(w, buf, perm, n), MessageKey(s), ct))
  {
    SentWire(s, ct, me, buf);
    WireComplete(WireOf(s, ct), me, decode, buf, perm);
  }

  /** What the listener reports for a message depends only on its text, not on the arrival order. */
  lemma ArrivalOrderUnobservable(s: Session, ct: string, me: OwnId, decode: string -> Decoded,
                                 buf: Buffer, p: seq<nat>, q: seq<nat>)
    requires Deliverable(s, ct, me, buf)
    requires IsArrivalOrder(p, |SendMessage(s, ct).names|)
    requires IsArrivalOrder(q, |SendMessage(s, ct).names|)
    ensures var a := Listen(me, decode, buf, Captured(SendMessage(s, ct).names, p));
            var b := Listen(me, decode, buf, Captured(SendMessage(s, ct).names, q));
            && a.events == b.events
            && a.Halted? == b.Halted?
            && (a.Halted? ==> a.fault == b.fault)
  {
    var w := WireOf(s, ct);
    var n := |SendMessage(s, ct).names|;
    DeliveredMessageReassembles(s, ct, me, decode, buf, p);
    DeliveredMessageReassembles(s, ct, me, decode, buf, q);
    ConcludeIgnoresBuffer(decode, WirePartial(w, buf, p, n), WirePartial(w, buf, q, n), MessageKey(s), ct);
  }

  // ---------------------------------------------------------------------------
  // The message envelope
  // ---------------------------------------------------------------------------

  /** The members of `msgstring` as the message loop builds it: a time stamp and the text. */
  function SenderEnvelope(stamp: string, text: string): (m: map<string, string>)
    ensures m.Keys == {"t", "m"}
  {
    map["t" := stamp, "m" := text]
  }

  /** The envelope the display line expects: the sender's id under `'f'` as well. */
  function SenderEnvelopeFixed(stamp: string, from: string, text: string): (m: map<string, string>)
    ensures m.Keys == {"t", "f", "m"}
  {
    map["t" := stamp, "f" := from, "m" := text]
  }

  /** A decrypted envelope without `'f'` ends the listener with a `KeyError`. */
  lemma EnvelopeAsWrittenCrashes(decode: string -> Decoded, buf: Buffer, key: string,
                                 compiled: string, stamp: string, text: string)
    requires key in buf
    requires decode(compiled) == JsonObject(SenderEnvelope(stamp, text))
    ensures Conclude(decode, buf, key, compiled) == Crash(BadEnvelope(compiled))
  {
    assert "f" !in SenderEnvelope(stamp, text);
  }

  /** With `'f'` in the envelope the message is displayed and marked as output. */
  lemma EnvelopeFixedDisplays(decode: string -> Decoded, buf: Buffer, key: string,
                              compiled: string, stamp: string, from: string, text: string)
    requires key in buf
    requires decode(compiled) == JsonObject(SenderEnvelopeFixed(stamp, from, text))
    ensures Conclude(decode, buf, key, compiled)
         == Continue(buf[key := buf[key].(output := true)], Displayed(key, compiled, stamp, from, text))
  {
    var m := SenderEnvelopeFixed(stamp, from, text);
    assert "t" in m && "f" in m && "m" in m;
  }

  /**
    As written, a message that reaches another participant intact stops
    its listener instead of being shown: every fragment but the last is
    stored, then the missing `'f'` raises.
   */
  lemma DeliveredMessageHaltsListener(s: Session, ct: string, me: OwnId, decode: string -> Decoded,
                                      buf: Buffer, perm: seq<nat>, stamp: string, text: string)
    requires Deliverable(s, ct, me, buf)
    requires IsArrivalOrder(perm, |SendMessage(s, ct).names|)
    requires decode(ct) == JsonObject(SenderEnvelope(stamp, text))
    ensures Listen(me, decode, buf, Captured(SendMessage(s, ct).names, perm))
         == Halted(Repeat(Stored(MessageKey(s)), |perm| - 1), BadEnvelope(ct))
  {
    DeliveredMessageReassembles(s, ct, me, decode, buf, perm);
    var last := WirePartial(WireOf(s, ct), buf, perm, |perm|);
    EnvelopeAsWrittenCrashes(decode, last, MessageKey(s), ct, stamp, text);
  }

  /**
    As written, decryption of a genuine message fails (the text is unhexlified
    twice), and that failure escapes the `try`: the n-1 other fragments are
    stored, then the listener stops.
   */
  lemma DeliveredMessageUndecryptable(s: Session, ct: string, me: OwnId, decode: string -> Decoded,
                                      buf: Buffer, perm: seq<nat>)
    requires Deliverable(s, ct, me, buf)
    requires IsArrivalOrder(perm, |SendMessage(s, ct).names|)
    requires decode(ct) == DecryptError
    ensures Listen(me, decode, buf, Captured(SendMessage(s, ct).names, perm))
         == Halted(Repeat(Stored(MessageKey(s)), |perm| - 1), DecryptFault(ct))
  {
    DeliveredMessageReassembles(s, ct, me, decode, buf, perm);
    var last := WirePartial(WireOf(s, ct), buf, perm, |perm|);
    ConcludeFacts(decode, last, MessageKey(s), ct);
  }

  /**
    With the sender's id in the envelope, a delivered message is displayed
    exactly once, with the sender's id, after its other fragments are stored.
   */
  lemma DeliveredMessageDisplayed(s: Session, ct: string, me: OwnId, decode: string -> Decoded,
                                  buf: Buffer, perm: seq<nat>, stamp: string, text: string)
    requires Deliverable(s, ct, me, buf)
    requires IsArrivalOrder(perm, |SendMessage(s, ct).names|)
    requires decode(ct) == JsonObject(SenderEnvelopeFixed(stamp, IdText(s.id), text))
    ensures var r := Listen(me, decode, buf, Captured(SendMessage(s, ct).names, perm));
            && r.Running?
            && r.events == Repeat(Stored(MessageKey(s)), |perm| - 1)
                           + [Displayed(MessageKey(s), ct, stamp, IdText(s.id), text)]
            && MessageKey(s) in r.buffer
            && r.buffer[MessageKey(s)].output
            && r.buffer[MessageKey(s)].user == IdText(s.id)
  {
    DeliveredMessageReassembles(s, ct, me, decode, buf, perm);
    var last := WirePartial(WireOf(s, ct), buf, perm, |perm|);
    EnvelopeFixedDisplays(decode, last, MessageKey(s), ct, stamp, IdText(s.id), text);
  }

  // ---------------------------------------------------------------------------
  // The participant's own id
  // ---------------------------------------------------------------------------

  /** The listener drops every name sent under its own numeric id. */
  lemma OwnNamesDropped(s: Session, ct: string, k: nat)
    requires s.id.Numeric?
    requires SendMessage(s, ct).Sent? && k < |SendMessage(s, ct).names|
    requires '.' !in IdText(s.id) && IsLowerHex(ct)
    ensures Dropped(s.id, AsQuery(SendMessage(s, ct).names[k]))
  {
    SentNameLabels(s, ct, k);
    ParseIntToStr(s.id.n);
    NatToStrDigits(s.seqid);
  }

  /** A textual id never matches, so the listener admits names sent under it. */
  lemma TextualNamesAdmitted(s: Session, ct: string, k: nat)
    requires s.id.Textual?
    requires SendMessage(s, ct).Sent? && k < |SendMessage(s, ct).names|
    requires '.' !in IdText(s.id) && IsLowerHex(ct) && ParseInt(IdText(s.id)).Some?
    ensures Admitted(s.id, AsQuery(SendMessage(s, ct).names[k]))
    ensures !Dropped(s.id, AsQuery(SendMessage(s, ct).names[k]))
  {
    SentNameLabels(s, ct, k);
    NatToStrDigits(s.seqid);
  }

  lemma SevenParses()
    ensures IntToStr(7) == "7"
    ensures ParseInt("7") == Some(7)
  {
    ParseIntToStr(7);
  }

  /**
    `-i 7` as written: the id stays the text `"7"`, and the participant's
    own names, all sent under `7`, pass the own-id check.
   */
  lemma IdOptionAsWritten(roll: int, s: Session, ct: string, k: nat)
    requires 1 <= roll <= 99
    requires s.id == ChooseId(Some("7"), roll).id
    requires SendMessage(s, ct).Sent? && k < |SendMessage(s, ct).names| && IsLowerHex(ct)
    ensures ChooseId(Some("7"), roll) == Chosen(Textual("7"))
    ensures !Dropped(s.id, AsQuery(SendMessage(s, ct).names[k]))
  {
    SevenParses();
    TextualNamesAdmitted(s, ct, k);
  }

  /** `-i 7` with the integer kept: the participant's own names are dropped. */
  lemma IdOptionFixed(roll: int, s: Session, ct: string, k: nat)
    requires 1 <= roll <= 99
    requires s.id == ChooseIdFixed(Some("7"), roll).id
    requires SendMessage(s, ct).Sent? && k < |SendMessage(s, ct).names| && IsLowerHex(ct)
    ensures ChooseIdFixed(Some("7"), roll) == Chosen(Numeric(7))
    ensures Dropped(s.id, AsQuery(SendMessage(s, ct).names[k]))
  {
    SevenParses();
    OwnNamesDropped(s, ct, k);
  }
}

=== FILE: identity.dfy ===
/**
  The local participant id. Left alone, the program draws a random integer.
  With `-i ID` and `int(ID) > 0` it keeps the option's TEXT (`myid = arg`),
  and that text is what the listener later compares with `int(...)` of a
  received label; with `int(ID) <= 0` it draws as if the option were absent,
  and an ID that `int` rejects raises at start-up.
 */
module Identity {
  import opened Wrappers
  import opened PyText

  datatype OwnId = Numeric(n: int) | Textual(text: string)

  /** `str(myid)`, the first label of every name this participant sends. */
  function IdText(id: OwnId): string {
    match id
    case Numeric(n) => IntToStr(n)
    case Textual(t) => t
  }

  /** `int(eles[0]) == self.myid`: an int never equals a str in Python. */
  predicate IsOwn(id: OwnId, sender: int) {
    id.Numeric? && id.n == sender
  }

  /** Start-up outcome of the id option: an id, or the `ValueError` of `int(arg)`. */
  datatype Startup = Chosen(id: OwnId) | BadIdOption

  /**
    The id selection as written: `-i` text kept when `int(arg) > 0`,
    otherwise the random draw `roll` (from 1 to 99).
   */
  function ChooseId(arg: Option<string>, roll: int): (r: Startup)
    requires 1 <= roll <= 99
    ensures arg.None? ==> r == Chosen(Numeric(roll))
    ensures r == BadIdOption <==> arg.Some? && ParseInt(arg.value).None?
    ensures r.Chosen? && r.id.Textual? ==>
              arg.Some? && r.id.text == arg.value && ParseInt(arg.value).value > 0
    ensures r.Chosen? && r.id.Numeric? ==> r.id.n == roll
    ensures arg.Some? && ParseInt(arg.value).Some? && ParseInt(arg.value).value > 0 ==>
              r == Chosen(Textual(arg.value))
    ensures arg.Some? && ParseInt(arg.value).Some? && ParseInt(arg.value).value <= 0 ==>
              r == Chosen(Numeric(roll))
  {
    match arg
    case None => Chosen(Numeric(roll))
    case Some(a) =>
      match ParseInt(a)
      case None => BadIdOption
      case Some(v) => if v > 0 then Chosen(Textual(a)) else Chosen(Numeric(roll))
  }

  /** The id selection as evidently intended: the option's integer value is kept. */
  function ChooseIdFixed(arg: Option<string>, roll: int): (r: Startup)
    requires 1 <= roll <= 99
    ensures r == BadIdOption <==> arg.Some? && ParseInt(arg.value).None?
    ensures r.Chosen? ==> r.id.Numeric? && r.id.n > 0
    ensures r.Chosen? && arg.Some? && ParseInt(arg.value).value > 0 ==>
              r.id.n == ParseInt(arg.value).value
  {
    match arg
    case None => Chosen(Numeric(roll))
    case Some(a) =>
      match ParseInt(a)
      case None => BadIdOption
      case Some(v) => if v > 0 then Chosen(Numeric(v)) else Chosen(Numeric(roll))
  }

  /**
    The two selections fail together and agree whenever the option is absent
    or not positive; for a positive option the code keeps the text whose
    `int` the corrected selection keeps, and only the corrected id can ever
    match a sender's number.
   */
  lemma ChooseIdAgainstFixed(arg: Option<string>, roll: int, sender: int)
    requires 1 <= roll <= 99
    ensures var a, b := ChooseId(arg, roll), ChooseIdFixed(arg, roll);
            && (a.Chosen? <==> b.Chosen?)
            && (a.Chosen? && a.id.Numeric? ==> a == b)
            && (a.Chosen? && a.id.Textual? ==>
                  && ParseInt(a.id.text) == Some(b.id.n)
                  && !IsOwn(a.id, sender)
                  && (IsOwn(b.id, sender) <==> sender == b.id.n))
  {
  }
}

=== FILE: inbound.dfy ===
/**
  The receiving half of the channel: `ChatListen.process_pkt`, run on every
  captured packet. It splits the query name on dots, drops names whose
  second label is not a decimal sequence id and names sent under our own
  id, buffers the chunk under key `"seq" + seqid`, and when as many
  distinct indices as the first fragment's total have arrived, joins the
  chunks in integer index order and hands the result to decryption once.

  Every Python exception the callback can raise ends the listener thread
  (nothing catches it around the capture call), so it is a `Crash` with no
  buffer left behind. Decryption and JSON parsing are a parameter.
 */
module Inbound {
  import opened Wrappers
  import opened PyText
  import opened PyDict
  import opened IndexSort
  import opened Identity

  /** The DNS port the capture filter and the destination check look for. */
  const DnsPort := 53

  /** A captured packet: does it hold a DNS question, its destination port, the queried name. */
  datatype Packet = Packet(hasQuestion: bool, dport: int, qname: string)

  /** The buffered state of one sequence id. */
  datatype Entry = Entry(user: string, entries: Dict, seqlen: string, output: bool)

  type Buffer = map<string, Entry>

  /**
    What `decrypt(unhexlify(compiled))` then `json.loads` yield: an error
    outside the `try`, a JSON error inside it, a JSON value that is not an
    object, or an object (its member values kept as text).
   */
  datatype Decoded = DecryptError | NotJson | JsonOther | JsonObject(fields: map<string, string>)

  datatype Event =
    | Ignored
    | Stored(key: string)
    | Displayed(key: string, compiled: string, stamp: string, sender: string, text: string)
    | Undecryptable(key: string, compiled: string)

  /** The exception that ends the listener. */
  datatype Fault =
    | ShortName                       // IndexError on a missing label
    | BadSenderId                     // ValueError from int() of the first label
    | BadTotal                        // ValueError from int() of the stored total
    | BadIndex                        // ValueError from int() of a stored index while sorting
    | DecryptFault(compiled: string)  // unhexlify or decryption raised
    | BadEnvelope(compiled: string)   // the decoded JSON lacks 't', 'f' or 'm'

  datatype Outcome = Continue(buffer: Buffer, event: Event) | Crash(fault: Fault)

  predicate IsEmission(e: Event) {
    e.Displayed? || e.Undecryptable?
  }

  function BufferKey(seqid: string): string {
    "seq" + seqid
  }

  /** `DNSQR in pkt and pkt.dport == 53`. */
  predicate IsDnsQuery(pkt: Packet) {
    pkt.hasQuestion && pkt.dport == DnsPort
  }

  function Labels(pkt: Packet): seq<string> {
    Split(pkt.qname)
  }

  /**
    The packets the listener drops without touching its buffer: not a DNS
    query, a sequence-id label that is not decimal, or our own numeric id.
   */
  predicate Dropped(me: OwnId, pkt: Packet) {
    var eles := Labels(pkt);
    || !IsDnsQuery(pkt)
    || (|eles| >= 3 && !MatchesDigitPattern(eles[1]))
    || (|eles| >= 3 && ParseInt(eles[0]).Some? && IsOwn(me, ParseInt(eles[0]).value))
  }

  /** The packets that reach the buffer: a query with a decimal sequence id, a foreign numeric sender and five labels. */
  predicate Admitted(me: OwnId, pkt: Packet) {
    var eles := Labels(pkt);
    && IsDnsQuery(pkt)
    && |eles| >= 5
    && MatchesDigitPattern(eles[1])
    && ParseInt(eles[0]).Some?
    && !IsOwn(me, ParseInt(eles[0]).value)
  }

  /** Lines 83-91: create the entry on first sight, then record the chunk at its index. */
  function Store(buf: Buffer, key: string, user: string, seqno: string, total: string, chunk: string): (b: Buffer)
    ensures key in b
  {
    var entry := if key in buf then buf[key] else Entry(user, [], total, false);
    buf[key := entry.(entries := Put(entry.entries, seqno, chunk))]
  }

  /** Lines 100-121: decode the reassembled hex once and mark the entry as output. */
  function Conclude(decode: string -> Decoded, buf: Buffer, key: string, compiled: string): (o: Outcome)
    requires key in buf
  {
    match decode(compiled)
    case DecryptError => Crash(DecryptFault(compiled))
    case NotJson =>
      Continue(buf[key := buf[key].(output := true)], Undecryptable(key, compiled))
    case JsonOther => Crash(BadEnvelope(compiled))
    case JsonObject(obj) =>
      if "t" in obj && "f" in obj && "m" in obj then
        Continue(buf[key := buf[key].(output := true)], Displayed(key, compiled, obj["t"], obj["f"], obj["m"]))
      else
        Crash(BadEnvelope(compiled))
  }

  /** The chunks of a dict joined in integer index order, or the `ValueError` of a bad index. */
  function Reassemble(d: Dict): Option<string> {
    match IndexPieces(d)
    case None => None
    case Some(pieces) => Some(Concat(SortByIndex(pieces)))
  }

  lemma ReassembleOf(d: Dict, pieces: seq<Piece>)
    requires IndexPieces(d) == Some(pieces)
    ensures Reassemble(d) == Some(Concat(SortByIndex(pieces)))
  {
  }

  /** Lines 94-121: once the entry holds as many indices as its total, reassemble and conclude. */
  function Settle(decode: string -> Decoded, buf: Buffer, key: string): Outcome
    requires key in buf
  {
    var entry := buf[key];
    match ParseInt(entry.seqlen)
    case None => Crash(BadTotal)
    case Some(n) =>
      if |entry.entries| != n || entry.output then Continue(buf, Stored(key))
      else
        match Reassemble(entry.entries)
        case None => Crash(BadIndex)
        case Some(compiled) => Conclude(decode, buf, key, compiled)
  }

  /** Lines 83-121 once the name has been accepted. */
  function Accept(decode: string -> Decoded, buf: Buffer, key: string,
                  user: string, seqno: string, total: string, chunk: string): Outcome
  {
    Settle(decode, Store(buf, key, user, seqno, total, chunk), key)
  }

  /** `ChatListen.process_pkt` for the local id `me`. */
  function ProcessPkt(me: OwnId, decode: string -> Decoded, buf: Buffer, pkt: Packet): Outcome {
    if !IsDnsQuery(pkt) then Continue(buf, Ignored)
    else
      var eles := Labels(pkt);
      if |eles| < 3 then Crash(ShortName)
      else if !MatchesDigitPattern(eles[1]) then Continue(buf, Ignored)
      else
        match ParseInt(eles[0])
        case None => Crash(BadSenderId)
        case Some(sender) =>
          if IsOwn(me, sender) then Continue(buf, Ignored)
          else if |eles| < 5 then Crash(ShortName)
          else Accept(decode, buf, BufferKey(eles[1]), eles[0], eles[2], eles[3], eles[4])
  }

  /** The capture loop's view: the packets in order, stopping at the first exception. */
  datatype Run = Running(buffer: Buffer, events: seq<Event>) | Halted(events: seq<Event>, fault: Fault)

  /** Records the outcome of one more packet on a run that is still going. */
  function Extend(r: Run, o: Outcome): Run
    requires r.Running?
  {
    match o
    case Crash(fault) => Halted(r.events, fault)
    case Continue(b, e) => Running(b, r.events + [e])
  }

  function Listen(me: OwnId, decode: string -> Decoded, buf: Buffer, pkts: seq<Packet>): Run
    decreases |pkts|
  {
    if |pkts| == 0 then Running(buf, [])
    else
      var r := Listen(me, decode, buf, pkts[..|pkts| - 1]);
      if r.Halted? then r
      else Extend(r, ProcessPkt(me, decode, r.buffer, pkts[|pkts| - 1]))
  }

  /** One more packet: the run so far, extended by that packet's outcome unless it already stopped. */
  lemma ListenSnoc(me: OwnId, decode: string -> Decoded, buf: Buffer, pkts: seq<Packet>, pkt: Packet)
    ensures var r := Listen(me, decode, buf, pkts);
            Listen(me, decode, buf, pkts + [pkt])
            == if r.Halted? then r else Extend(r, ProcessPkt(me, decode, r.buffer, pkt))
  {
    assert (pkts + [pkt])[..|pkts|] == pkts;
  }

  /** A run that is still going and a packet that does not raise: the run goes on with that step. */
  lemma ListenStep(me: OwnId, decode: string -> Decoded, buf: Buffer, pkts: seq<Packet>, pkt: Packet,
                   b: Buffer, events: seq<Event>, b': Buffer, e: Event)
    requires Listen(me, decode, buf, pkts) == Running(b, events)
    requires ProcessPkt(me, decode, b, pkt) == Continue(b', e)
    ensures Listen(me, decode, buf, pkts + [pkt]) == Running(b', events + [e])
  {
    ListenSnoc(me, decode, buf, pkts, pkt);
  }

  /**
    A run in which every packet continues: the listener ends with the last
    buffer of the chain and has reported each step's event, in order.
   */
  lemma {:induction false} ListenRuns(me: OwnId, decode: string -> Decoded, buf: Buffer, pkts: seq<Packet>,
                                      bufs: seq<Buffer>, events: seq<Event>)
    requires |bufs| == |pkts| + 1 && |events| == |pkts| && bufs[0] == buf
    requires forall i :: 0 <= i < |pkts| ==>
               ProcessPkt(me, decode, bufs[i], pkts[i]) == Continue(bufs[i + 1], events[i])
    ensures Listen(me, decode, buf, pkts) == Running(bufs[|pkts|], events)
    decreases |pkts|
  {
    if |pkts| == 0 {
      assert events == [];
    } else {
      var m := |pkts| - 1;
      ListenRuns(me, decode, buf, pkts[..m], bufs[..m + 1], events[..m]);
      ListenStep(me, decode, buf, pkts[..m], pkts[m], bufs[m], events[..m], bufs[m + 1], events[m]);
      assert pkts[..m] + [pkts[m]] == pkts;
      assert events[..m] + [events[m]] == events;
    }
  }

  // ---------------------------------------------------------------------------
  // Filtering
  // ---------------------------------------------------------------------------

  /** An admitted packet goes on to the buffer with its five labels. */
  lemma AdmittedIsAccepted(me: OwnId, decode: string -> Decoded, buf: Buffer, pkt: Packet)
    requires Admitted(me, pkt)
    ensures var eles := Labels(pkt);
            ProcessPkt(me, decode, buf, pkt)
            == Accept(decode, buf, BufferKey(eles[1]), eles[0], eles[2], eles[3], eles[4])
  {
    var eles := Labels(pkt);
    assert ParseInt(eles[0]).Some?;
  }

  /** Accepting a fragment always reports it: as stored, as a message or as a warning. */
  lemma AcceptReports(decode: string -> Decoded, buf: Buffer, key: string,
                      user: string, seqno: string, total: string, chunk: string)
    ensures var o := Accept(decode, buf, key, user, seqno, total, chunk);
            o.Continue? ==> !o.event.Ignored? && o.event.key == key
  {
    SettleFacts(decode, Store(buf, key, user, seqno, total, chunk), key);
  }

  /**
    The ways `Settle` can go: a total that is not an integer raises; an
    incomplete or already output entry is reported stored; a complete one is
    reassembled, and an index that is not an integer raises, otherwise the
    text is concluded.
   */
  lemma SettleCases(decode: string -> Decoded, buf: Buffer, key: string)
    requires key in buf
    ensures var o := Settle(decode, buf, key);
            var entry := buf[key];
            || o.Crash?
            || (o == Continue(buf, Stored(key)))
            || (&& !entry.output
                && ParseInt(entry.seqlen) == Some(|entry.entries|)
                && Reassemble(entry.entries).Some?
                && o == Conclude(decode, buf, key, Reassemble(entry.entries).value))
    ensures var o, entry := Settle(decode, buf, key), buf[key];
            ParseInt(entry.seqlen) == Some(|entry.entries|) && !entry.output && Reassemble(entry.entries).Some? ==>
              o == Conclude(decode, buf, key, Reassemble(entry.entries).value)
    ensures var o, entry := Settle(decode, buf, key), buf[key];
            ParseInt(entry.seqlen).Some? && (|entry.entries| != ParseInt(entry.seqlen).value || entry.output) ==>
              o == Continue(buf, Stored(key))
    ensures var o, entry := Settle(decode, buf, key), buf[key];
            ParseInt(entry.seqlen) == None ==> o == Crash(BadTotal)
    ensures var o, entry := Settle(decode, buf, key), buf[key];
            ParseInt(entry.seqlen) == Some(|entry.entries|) && !entry.output && Reassemble(entry.entries) == None ==>
              o == Crash(BadIndex)
  {
    var entry := buf[key];
    match ParseInt(entry.seqlen)
    case None =>
    case Some(n) =>
      if |entry.entries| != n || entry.output {
      } else {
        match Reassemble(entry.entries)
        case None =>
        case Some(compiled) =>
      }
  }

  /**
    What `Settle` reports and leaves behind: only the entry's output mark
    can change, and it is set exactly when a complete entry is reported.
   */
  lemma SettleFacts(decode: string -> Decoded, buf: Buffer, key: string)
    requires key in buf
    ensures var o := Settle(decode, buf, key);
            o.Continue? ==>
              && !o.event.Ignored? && o.event.key == key
              && key in o.buffer
              && o.buffer == buf[key := buf[key].(output := o.buffer[key].output)]
              && (o.event.Stored? ==> o.buffer == buf)
              && (IsEmission(o.event) ==>
                    && o.buffer[key].output && !buf[key].output
                    && ParseInt(buf[key].seqlen) == Some(|buf[key].entries|)
                    && Reassemble(buf[key].entries) == Some(o.event.compiled))
  {
    SettleCases(decode, buf, key);
    var entry := buf[key];
    if !entry.output && ParseInt(entry.seqlen) == Some(|entry.entries|) && Reassemble(entry.entries).Some? {
      ConcludeFacts(decode, buf, key, Reassemble(entry.entries).value);
    }
  }

  /**
    What `Conclude` reports and how it changes the buffer: a decryption
    failure escapes (it runs before the `try`), a JSON parse failure is the
    one warning, a non-object or an object without `t`, `f` and `m` raises at
    the display lines, and only a full envelope is displayed.
   */
  lemma ConcludeFacts(decode: string -> Decoded, buf: Buffer, key: string, compiled: string)
    requires key in buf
    ensures var o := Conclude(decode, buf, key, compiled);
            o.Continue? ==> && IsEmission(o.event) && o.event.key == key && o.event.compiled == compiled
                            && o.buffer == buf[key := buf[key].(output := true)]
    ensures var o := Conclude(decode, buf, key, compiled);
            decode(compiled) == DecryptError ==> o == Crash(DecryptFault(compiled))
    ensures var o := Conclude(decode, buf, key, compiled);
            decode(compiled) == NotJson ==>
              o == Continue(buf[key := buf[key].(output := true)], Undecryptable(key, compiled))
    ensures var o := Conclude(decode, buf, key, compiled);
            decode(compiled) == JsonOther ==> o == Crash(BadEnvelope(compiled))
    ensures var o, d := Conclude(decode, buf, key, compiled), decode(compiled);
            d.JsonObject? ==>
              (o.Continue? <==> "t" in d.fields && "f" in d.fields && "m" in d.fields)
              && (o.Crash? ==> o.fault == BadEnvelope(compiled))
              && (o.Continue? ==>
                    o.event == Displayed(key, compiled, d.fields["t"], d.fields["f"], d.fields["m"]))
  {
  }

  /** Whether `Conclude` raises, and what it reports, depends only on the text and the key. */
  lemma ConcludeIgnoresBuffer(decode: string -> Decoded, b1: Buffer, b2: Buffer, key: string, compiled: string)
    requires key in b1 && key in b2
    ensures var o1, o2 := Conclude(decode, b1, key, compiled), Conclude(decode, b2, key, compiled);
            && o1.Crash? == o2.Crash?
            && (o1.Crash? ==> o1.fault == o2.fault)
            && (o1.Continue? ==> o1.event == o2.event)
  {
  }

  /**
    A packet leaves the buffer as it was, with nothing reported, exactly
    when it is not a query, its sequence id is not decimal, or it carries
    our own numeric id.
   */
  lemma DroppedExactly(me: OwnId, decode: string -> Decoded, buf: Buffer, pkt: Packet)
    ensures ProcessPkt(me, decode, buf, pkt) == Continue(buf, Ignored) <==> Dropped(me, pkt)
  {
    var eles := Labels(pkt);
    if Admitted(me, pkt) {
      AdmittedIsAccepted(me, decode, buf, pkt);
      AcceptReports(decode, buf, BufferKey(eles[1]), eles[0], eles[2], eles[3], eles[4]);
    } else if IsDnsQuery(pkt) && |eles| >= 3 && MatchesDigitPattern(eles[1]) && ParseInt(eles[0]).Some? {
      assert ProcessPkt(me, decode, buf, pkt) == (if IsOwn(me, ParseInt(eles[0]).value) then Continue(buf, Ignored) else Crash(ShortName));
    }
  }

  /**
    A packet that is neither dropped nor admitted ends the listener: the
    name has too few labels or a first label that is not an integer.
   */
  lemma MalformedNameCrashes(me: OwnId, decode: string -> Decoded, buf: Buffer, pkt: Packet)
    requires !Dropped(me, pkt) && !Admitted(me, pkt)
    ensures ProcessPkt(me, decode, buf, pkt).Crash?
    ensures ProcessPkt(me, decode, buf, pkt).fault == ShortName
         || ProcessPkt(me, decode, buf, pkt).fault == BadSenderId
  {
    var eles := Labels(pkt);
    if |eles| >= 3 && ParseInt(eles[0]).Some? {
      assert ProcessPkt(me, decode, buf, pkt) == Crash(ShortName);
    }
  }

  /** Our own packets never reach the buffer, when the id is numeric. */
  lemma OwnPacketsDropped(n: int, decode: string -> Decoded, buf: Buffer, pkt: Packet)
    requires IsDnsQuery(pkt) && |Labels(pkt)| >= 3
    requires MatchesDigitPattern(Labels(pkt)[1])
    requires ParseInt(Labels(pkt)[0]) == Some(n)
    ensures ProcessPkt(Numeric(n), decode, buf, pkt) == Continue(buf, Ignored)
  {
  }

  /** Only admitted packets can change the buffer or be reported. */
  lemma OnlyAdmittedCount(me: OwnId, decode: string -> Decoded, buf: Buffer, pkt: Packet)
    requires !Admitted(me, pkt)
    ensures var o := ProcessPkt(me, decode, buf, pkt);
            o.Continue? ==> o == Continue(buf, Ignored)
  {
    var eles := Labels(pkt);
    if IsDnsQuery(pkt) && |eles| >= 3 && MatchesDigitPattern(eles[1]) && ParseInt(eles[0]).Some? {
      assert ProcessPkt(me, decode, buf, pkt) == (if IsOwn(me, ParseInt(eles[0]).value) then Continue(buf, Ignored) else Crash(ShortName));
    }
  }

  // ---------------------------------------------------------------------------
  // The buffer entry of one sequence id
  // ---------------------------------------------------------------------------

  lemma StoreFacts(buf: Buffer, key: string, user: string, seqno: string, total: string, chunk: string)
    ensures var b := Store(buf, key, user, seqno, total, chunk);
            && b.Keys == buf.Keys + {key}
            && (forall k :: k in buf && k != key ==> b[k] == buf[k])
            && b[key].output == (key in buf && buf[key].output)
            && (key in buf ==> b[key].user == buf[key].user && b[key].seqlen == buf[key].seqlen)
            && (key !in buf ==> b[key].user == user && b[key].seqlen == total)
            && Get(b[key].entries, seqno) == Some(chunk)
            && (forall i :: i != seqno ==>
                  Get(b[key].entries, i) == (if key in buf then Get(buf[key].entries, i) else None))
            && (key in buf && seqno in Keys(buf[key].entries) ==>
                  |b[key].entries| == |buf[key].entries|)
  {
  }

  /** Whatever `Settle` reports, the buffer it continues with is the given one, output mark aside. */
  lemma SettleBuffer(decode: string -> Decoded, buf: Buffer, key: string)
    requires key in buf
    requires Settle(decode, buf, key).Continue?
    ensures var o := Settle(decode, buf, key);
            && o.buffer.Keys == buf.Keys
            && (forall k :: k in buf && k != key ==> o.buffer[k] == buf[k])
            && o.buffer[key] == buf[key].(output := o.buffer[key].output)
            && (o.event.Stored? ==> o.buffer == buf)
            && (IsEmission(o.event) ==> o.buffer[key].output && !buf[key].output)
  {
    var o := Settle(decode, buf, key);
    SettleFacts(decode, buf, key);
    var e := buf[key].(output := o.buffer[key].output);
    assert o.buffer == buf[key := e];
    assert o.buffer.Keys == buf.Keys;
  }

  /** Whatever `Accept` reports, the buffer it continues with is the stored one, output mark aside. */
  lemma AcceptBuffer(decode: string -> Decoded, buf: Buffer, key: string,
                     user: string, seqno: string, total: string, chunk: string)
    requires Accept(decode, buf, key, user, seqno, total, chunk).Continue?
    ensures var o := Accept(decode, buf, key, user, seqno, total, chunk);
            var stored := Store(buf, key, user, seqno, total, chunk);
            && o.buffer.Keys == stored.Keys
            && (forall k :: k in stored && k != key ==> o.buffer[k] == stored[k])
            && o.buffer[key] == stored[key].(output := o.buffer[key].output)
            && (o.event.Stored? ==> o.buffer == stored)
            && (IsEmission(o.event) ==> o.buffer[key].output && !stored[key].output)
  {
    SettleBuffer(decode, Store(buf, key, user, seqno, total, chunk), key);
  }

  /**
    An admitted fragment lands in the entry keyed by its sequence id alone;
    the entry's user and total are those of the first fragment seen for
    that key, the chunk is recorded at its index (a repeated index
    overwrites it without growing the dict), and no other entry changes.
   */
  lemma FragmentLands(me: OwnId, decode: string -> Decoded, buf: Buffer, pkt: Packet)
    requires Admitted(me, pkt)
    requires ProcessPkt(me, decode, buf, pkt).Continue?
    ensures var eles, b := Labels(pkt), ProcessPkt(me, decode, buf, pkt).buffer;
            var key := BufferKey(eles[1]);
            && b.Keys == buf.Keys + {key}
            && (forall k :: k in buf && k != key ==> b[k] == buf[k])
            && (key in buf ==> b[key].user == buf[key].user && b[key].seqlen == buf[key].seqlen)
            && (key !in buf ==> b[key].user == eles[0] && b[key].seqlen == eles[3])
            && Get(b[key].entries, eles[2]) == Some(eles[4])
            && (forall i :: i != eles[2] ==>
                  Get(b[key].entries, i) == (if key in buf then Get(buf[key].entries, i) else None))
            && (key in buf && eles[2] in Keys(buf[key].entries) ==>
                  |b[key].entries| == |buf[key].entries|)
  {
    var eles := Labels(pkt);
    var key := BufferKey(eles[1]);
    AdmittedIsAccepted(me, decode, buf, pkt);
    StoreFacts(buf, key, eles[0], eles[2], eles[3], eles[4]);
    AcceptBuffer(decode, buf, key, eles[0], eles[2], eles[3], eles[4]);
  }

  /** A step never removes an entry nor clears an output mark. */
  lemma KeyPreserved(me: OwnId, decode: string -> Decoded, buf: Buffer, pkt: Packet, key: string)
    requires ProcessPkt(me, decode, buf, pkt).Continue?
    ensures var b := ProcessPkt(me, decode, buf, pkt).buffer;
            key in buf ==> key in b && (buf[key].output ==> b[key].output)
  {
    if Admitted(me, pkt) {
      var eles := Labels(pkt);
      var k := BufferKey(eles[1]);
      AdmittedIsAccepted(me, decode, buf, pkt);
      StoreFacts(buf, k, eles[0], eles[2], eles[3], eles[4]);
      AcceptBuffer(decode, buf, k, eles[0], eles[2], eles[3], eles[4]);
    } else {
      OnlyAdmittedCount(me, decode, buf, pkt);
    }
  }

  /**
    Once an entry has been output, later fragments for it still land but
    never produce a second message or warning, and the entry stays output.
   */
  lemma OutputIsFinal(me: OwnId, decode: string -> Decoded, buf: Buffer, pkt: Packet, key: string)
    requires key in buf && buf[key].output
    ensures var o := ProcessPkt(me, decode, buf, pkt);
            o.Continue? ==> key in o.buffer && o.buffer[key].output
                            && !(IsEmission(o.event) && o.event.key == key)
  {
    var o := ProcessPkt(me, decode, buf, pkt);
    if o.Continue? {
      KeyPreserved(me, decode, buf, pkt, key);
      if Admitted(me, pkt) {
        var eles := Labels(pkt);
        var k := BufferKey(eles[1]);
        AdmittedIsAccepted(me, decode, buf, pkt);
        StoreFacts(buf, k, eles[0], eles[2], eles[3], eles[4]);
        AcceptBuffer(decode, buf, k, eles[0], eles[2], eles[3], eles[4]);
        AcceptReports(decode, buf, k, eles[0], eles[2], eles[3], eles[4]);
      } else {
        OnlyAdmittedCount(me, decode, buf, pkt);
      }
    }
  }

  /** The emission step of `Accept`: completion condition and reassembled text. */
  lemma AcceptEmission(decode: string -> Decoded, buf: Buffer, key: string,
                       user: string, seqno: string, total: string, chunk: string)
    requires Accept(decode, buf, key, user, seqno, total, chunk).Continue?
    requires IsEmission(Accept(decode, buf, key, user, seqno, total, chunk).event)
    ensures var o := Accept(decode, buf, key, user, seqno, total, chunk);
            && key in o.buffer
            && ParseInt(o.buffer[key].seqlen) == Some(|o.buffer[key].entries|)
            && Reassemble(o.buffer[key].entries) == Some(o.event.compiled)
  {
    SettleFacts(decode, Store(buf, key, user, seqno, total, chunk), key);
  }

  /**
    A message or warning is produced only for an entry not yet output, at
    the moment its dict holds as many indices as its total, and the entry
    is then marked output.
   */
  lemma EmissionCompletesEntry(me: OwnId, decode: string -> Decoded, buf: Buffer, pkt: Packet)
    requires ProcessPkt(me, decode, buf, pkt).Continue?
    requires IsEmission(ProcessPkt(me, decode, buf, pkt).event)
    ensures var o := ProcessPkt(me, decode, buf, pkt);
            var key := o.event.key;
            && Admitted(me, pkt)
            && key == BufferKey(Labels(pkt)[1])
            && (key in buf ==> !buf[key].output)
            && key in o.buffer && o.buffer[key].output
            && ParseInt(o.buffer[key].seqlen) == Some(|o.buffer[key].entries|)
            && Reassemble(o.buffer[key].entries) == Some(o.event.compiled)
  {
    if !Admitted(me, pkt) {
      OnlyAdmittedCount(me, decode, buf, pkt);
    } else {
      var eles := Labels(pkt);
      var k := BufferKey(eles[1]);
      AdmittedIsAccepted(me, decode, buf, pkt);
      StoreFacts(buf, k, eles[0], eles[2], eles[3], eles[4]);
      AcceptBuffer(decode, buf, k, eles[0], eles[2], eles[3], eles[4]);
      AcceptReports(decode, buf, k, eles[0], eles[2], eles[3], eles[4]);
      AcceptEmission(decode, buf, k, eles[0], eles[2], eles[3], eles[4]);
    }
  }

  /** How many messages or warnings the events report for `key`. */
  function Emissions(events: seq<Event>, key: string): nat
    decreases |events|
  {
    if |events| == 0 then 0
    else Emissions(events[..|events| - 1], key)
         + (if IsEmission(events[|events| - 1]) && events[|events| - 1].key == key then 1 else 0)
  }

  function OutputFlag(buf: Buffer, key: string): nat {
    if key in buf && buf[key].output then 1 else 0
  }

  lemma {:induction false} ListenEmissions(me: OwnId, decode: string -> Decoded, buf: Buffer, pkts: seq<Packet>, key: string)
    ensures var r := Listen(me, decode, buf, pkts);
            r.Running? ==> Emissions(r.events, key) + OutputFlag(buf, key) <= OutputFlag(r.buffer, key)
    ensures var r := Listen(me, decode, buf, pkts);
            r.Running? ==> OutputFlag(buf, key) <= OutputFlag(r.buffer, key)
    ensures var r := Listen(me, decode, buf, pkts);
            Emissions(r.events, key) + OutputFlag(buf, key) <= 1
    decreases |pkts|
  {
    if |pkts| > 0 {
      var prefix := pkts[..|pkts| - 1];
      ListenEmissions(me, decode, buf, prefix, key);
      var r := Listen(me, decode, buf, prefix);
      if r.Running? {
        var pkt := pkts[|pkts| - 1];
        var o := ProcessPkt(me, decode, r.buffer, pkt);
        if o.Continue? {
          if key in r.buffer && r.buffer[key].output {
            OutputIsFinal(me, decode, r.buffer, pkt, key);
          }
          if IsEmission(o.event) {
            EmissionCompletesEntry(me, decode, r.buffer, pkt);
          }
          if !IsEmission(o.event) || o.event.key != key {
            KeyPreserved(me, decode, r.buffer, pkt, key);
          }
          assert Emissions(r.events + [o.event], key)
              == Emissions(r.events, key) + (if IsEmission(o.event) && o.event.key == key then 1 else 0);
        }
      }
    }
  }


  /**
    At most one message or warning is ever produced per sequence id, and
    none for one that was already output.
   */
  lemma AtMostOneEmission(me: OwnId, decode: string -> Decoded, buf: Buffer, pkts: seq<Packet>, key: string)
    ensures Emissions(Listen(me, decode, buf, pkts).events, key) <= 1
    ensures key in buf && buf[key].output ==> Emissions(Listen(me, decode, buf, pkts).events, key) == 0
  {
    ListenEmissions(me, decode, buf, pkts, key);
  }

  // ---------------------------------------------------------------------------
  // Every entry's dict keeps distinct keys, so `len(entries)` is its length
  // ---------------------------------------------------------------------------

  predicate DistinctEntries(buf: Buffer) {
    forall k :: k in buf ==> DistinctKeys(buf[k].entries)
  }

  lemma StoreKeepsDistinct(buf: Buffer, key: string, user: string, seqno: string, total: string, chunk: string)
    requires DistinctEntries(buf)
    ensures DistinctEntries(Store(buf, key, user, seqno, total, chunk))
  {
    var entry := if key in buf then buf[key] else Entry(user, [], total, false);
    PutKeepsDistinct(entry.entries, seqno, chunk);
  }

  /** A packet that does not raise leaves every entry's dict without repeated indices. */
  lemma StepKeepsDistinct(me: OwnId, decode: string -> Decoded, buf: Buffer, pkt: Packet)
    requires DistinctEntries(buf)
    requires ProcessPkt(me, decode, buf, pkt).Continue?
    ensures DistinctEntries(ProcessPkt(me, decode, buf, pkt).buffer)
  {
    if Admitted(me, pkt) {
      var eles := Labels(pkt);
      var key := BufferKey(eles[1]);
      AdmittedIsAccepted(me, decode, buf, pkt);
      StoreKeepsDistinct(buf, key, eles[0], eles[2], eles[3], eles[4]);
      AcceptBuffer(decode, buf, key, eles[0], eles[2], eles[3], eles[4]);
    } else {
      OnlyAdmittedCount(me, decode, buf, pkt);
    }
  }

  /**
    Along any run that is still going, no entry's dict repeats an index, so
    its length is the number of indices received (`DistinctKeysCount`).
   */
  lemma {:induction false} ListenKeepsDistinct(me: OwnId, decode: string -> Decoded, buf: Buffer, pkts: seq<Packet>)
    requires DistinctEntries(buf)
    ensures var r := Listen(me, decode, buf, pkts);
            r.Running? ==> DistinctEntries(r.buffer)
    decreases |pkts|
  {
    if |pkts| > 0 {
      var init := pkts[..|pkts| - 1];
      ListenKeepsDistinct(me, decode, buf, init);
      var r := Listen(me, decode, buf, init);
      if r.Running? && ProcessPkt(me, decode, r.buffer, pkts[|pkts| - 1]).Continue? {
        StepKeepsDistinct(me, decode, r.buffer, pkts[|pkts| - 1]);
      }
    }
  }

  /** The listener starts from `{}`: every entry it ever holds has distinct indices. */
  lemma ListenFromEmptyDistinct(me: OwnId, decode: string -> Decoded, pkts: seq<Packet>, key: string)
    ensures var r := Listen(me, decode, map[], pkts);
            r.Running? && key in r.buffer ==>
              && DistinctKeys(r.buffer[key].entries)
              && |Keys(r.buffer[key].entries)| == |r.buffer[key].entries|
  {
    ListenKeepsDistinct(me, decode, map[], pkts);
    var r := Listen(me, decode, map[], pkts);
    if r.Running? && key in r.buffer {
      DistinctKeysCount(r.buffer[key].entries);
    }
  }
}

=== FILE: indexsort.dfy ===
/**
  Reassembly order: the listener joins the fragments of a message after
  `sorted(entries.items(), key=lambda kv: int(kv[0]))`. Python's sort is
  stable, so fragments whose indices parse to the same integer stay in
  insertion order. This module models that sort on (index, chunk) pieces
  and proves what it guarantees.
 */
module IndexSort {
  import opened Wrappers
  import opened PyText
  import opened PyDict

  type Piece = (int, string)

  /**
    `int(k)` for every key of the dict, in insertion order; `None` is the
    `ValueError` of the first key that is not an integer.
   */
  function IndexPieces(d: Dict): (r: Option<seq<Piece>>)
    ensures r.Some? ==> |r.value| == |d|
    ensures r.Some? <==> forall i :: 0 <= i < |d| ==> ParseInt(d[i].0).Some?
    ensures r.Some? ==> forall i :: 0 <= i < |d| ==>
              r.value[i] == (ParseInt(d[i].0).value, d[i].1)
    decreases |d|
  {
    if |d| == 0 then Some([])
    else
      match ParseInt(d[|d| - 1].0)
      case None => None
      case Some(n) =>
        match IndexPieces(d[..|d| - 1])
        case None => None
        case Some(ps) => Some(ps + [(n, d[|d| - 1].1)])
  }

  predicate Sorted(s: seq<Piece>) {
    forall i, j :: 0 <= i < j < |s| ==> s[i].0 <= s[j].0
  }

  predicate StrictlySorted(s: seq<Piece>) {
    forall i, j :: 0 <= i < j < |s| ==> s[i].0 < s[j].0
  }

  predicate DistinctIndices(s: seq<Piece>) {
    forall i, j :: 0 <= i < j < |s| ==> s[i].0 != s[j].0
  }

  /** Places `x` after every piece whose index is not larger: the stable insertion step. */
  function Insert(x: Piece, s: seq<Piece>): (r: seq<Piece>)
    ensures multiset(r) == multiset(s) + multiset{x}
    decreases |s|
  {
    if |s| == 0 then [x]
    else if s[|s| - 1].0 <= x.0 then s + [x]
    else
      assert s == s[..|s| - 1] + [s[|s| - 1]];
      Insert(x, s[..|s| - 1]) + [s[|s| - 1]]
  }

  lemma {:induction false} InsertSorted(x: Piece, s: seq<Piece>)
    requires Sorted(s)
    ensures Sorted(Insert(x, s))
    decreases |s|
  {
    if |s| > 0 && s[|s| - 1].0 > x.0 {
      var init, last := s[..|s| - 1], s[|s| - 1];
      InsertSorted(x, init);
      var front := Insert(x, init);
      forall i | 0 <= i < |front|
        ensures front[i].0 <= last.0
      {
        assert front[i] in multiset(init) + multiset{x};
        if front[i] != x {
          assert front[i] in multiset(init);
          var k :| 0 <= k < |init| && init[k] == front[i];
          assert s[k] == init[k];
        }
      }
    }
  }

  /** Inserting a piece whose index is new keeps the indices strictly increasing. */
  lemma {:induction false} InsertStrict(x: Piece, s: seq<Piece>)
    requires StrictlySorted(s)
    requires forall i :: 0 <= i < |s| ==> s[i].0 != x.0
    ensures StrictlySorted(Insert(x, s))
    decreases |s|
  {
    if |s| > 0 && s[|s| - 1].0 > x.0 {
      var init, last := s[..|s| - 1], s[|s| - 1];
      InsertStrict(x, init);
      var front := Insert(x, init);
      forall i | 0 <= i < |front|
        ensures front[i].0 < last.0
      {
        assert front[i] in multiset(init) + multiset{x};
        if front[i] != x {
          assert front[i] in multiset(init);
          var k :| 0 <= k < |init| && init[k] == front[i];
          assert s[k] == init[k];
        }
      }
    }
  }

  /** Python's `sorted` by index: insertion sort, each piece inserted in arrival order. */
  function SortByIndex(s: seq<Piece>): (r: seq<Piece>)
    ensures Sorted(r)
    ensures multiset(r) == multiset(s)
    decreases |s|
  {
    if |s| == 0 then []
    else
      var sorted := SortByIndex(s[..|s| - 1]);
      assert s == s[..|s| - 1] + [s[|s| - 1]];
      InsertSorted(s[|s| - 1], sorted);
      Insert(s[|s| - 1], sorted)
  }

  /** The chunks joined in the given order (`compiled += value`). */
  function Concat(s: seq<Piece>): string
    decreases |s|
  {
    if |s| == 0 then "" else s[0].1 + Concat(s[1..])
  }

  // ---------------------------------------------------------------------------
  // Stability
  // ---------------------------------------------------------------------------

  /** The pieces carrying index `v`, in order. */
  function WithIndex(s: seq<Piece>, v: int): seq<Piece>
    decreases |s|
  {
    if |s| == 0 then []
    else WithIndex(s[..|s| - 1], v) + (if s[|s| - 1].0 == v then [s[|s| - 1]] else [])
  }

  lemma WithIndexSnoc(a: seq<Piece>, x: Piece, v: int)
    ensures WithIndex(a + [x], v) == WithIndex(a, v) + (if x.0 == v then [x] else [])
  {
    assert (a + [x])[..|a + [x]| - 1] == a;
  }

  lemma {:induction false} WithIndexInsert(x: Piece, s: seq<Piece>, v: int)
    ensures WithIndex(Insert(x, s), v) == WithIndex(s, v) + (if x.0 == v then [x] else [])
    decreases |s|
  {
    if |s| == 0 {
      WithIndexSnoc([], x, v);
    } else if s[|s| - 1].0 <= x.0 {
      WithIndexSnoc(s, x, v);
    } else {
      var last := s[|s| - 1];
      var init := s[..|s| - 1];
      WithIndexInsert(x, init, v);
      var front := Insert(x, init);
      assert Insert(x, s) == front + [last];
      WithIndexSnoc(front, last, v);
    }
  }

  /** Pieces that share an index keep their arrival order: the sort is stable. */
  lemma {:induction false} SortIsStable(s: seq<Piece>, v: int)
    ensures WithIndex(SortByIndex(s), v) == WithIndex(s, v)
    decreases |s|
  {
    if |s| > 0 {
      SortIsStable(s[..|s| - 1], v);
      WithIndexInsert(s[|s| - 1], SortByIndex(s[..|s| - 1]), v);
    }
  }

  // ---------------------------------------------------------------------------
  // Uniqueness of the sorted arrangement
  // ---------------------------------------------------------------------------

  /** Two arrangements of the same pieces, one sorted and one strictly sorted, start alike. */
  lemma HeadsAgree(a: seq<Piece>, b: seq<Piece>)
    requires Sorted(a) && StrictlySorted(b)
    requires multiset(a) == multiset(b)
    requires |a| > 0
    ensures |b| > 0 && a[0] == b[0]
  {
    assert a[0] in multiset(a);
    assert a[0] in multiset(b);
    var j :| 0 <= j < |b| && b[j] == a[0];
    assert b[0] in multiset(a);
    var i :| 0 <= i < |a| && a[i] == b[0];
    assert a[0].0 <= a[i].0;
  }

  /** Dropping equal heads leaves equal multisets. */
  lemma TailsAgree(a: seq<Piece>, b: seq<Piece>)
    requires |a| > 0 && |b| > 0 && a[0] == b[0]
    requires multiset(a) == multiset(b)
    ensures multiset(a[1..]) == multiset(b[1..])
  {
    assert a == [a[0]] + a[1..];
    assert b == [b[0]] + b[1..];
    assert multiset(a) == multiset{a[0]} + multiset(a[1..]);
    assert multiset(b) == multiset{b[0]} + multiset(b[1..]);
    assert multiset(a[1..]) == multiset(a) - multiset{a[0]};
  }

  /** A sorted arrangement of pieces with distinct indices is the only sorted one. */
  lemma {:induction false} SortedArrangementUnique(a: seq<Piece>, b: seq<Piece>)
    requires Sorted(a) && StrictlySorted(b)
    requires multiset(a) == multiset(b)
    ensures a == b
    decreases |a|
  {
    if |a| == 0 {
      assert |multiset(b)| == 0;
    } else {
      HeadsAgree(a, b);
      TailsAgree(a, b);
      SortedArrangementUnique(a[1..], b[1..]);
      assert a == [a[0]] + a[1..];
      assert b == [b[0]] + b[1..];
    }
  }

  /** If the pieces could be laid out with strictly increasing indices, sorting finds that layout. */
  lemma SortRecoversStrictOrder(s: seq<Piece>, target: seq<Piece>)
    requires StrictlySorted(target)
    requires multiset(s) == multiset(target)
    ensures SortByIndex(s) == target
  {
    SortedArrangementUnique(SortByIndex(s), target);
  }

  /** Sorting pieces with pairwise different indices yields strictly increasing indices. */
  lemma {:induction false} SortDistinctIsStrict(s: seq<Piece>)
    requires DistinctIndices(s)
    ensures StrictlySorted(SortByIndex(s))
    decreases |s|
  {
    if |s| > 0 {
      var init, last := s[..|s| - 1], s[|s| - 1];
      SortDistinctIsStrict(init);
      var r := SortByIndex(init);
      forall i | 0 <= i < |r|
        ensures r[i].0 != last.0
      {
        assert r[i] in multiset(init);
        var k :| 0 <= k < |init| && init[k] == r[i];
        assert s[k] == init[k];
      }
      InsertStrict(last, r);
    }
  }

  /**
    Fragments with pairwise different indices reassemble to the same text
    whatever order they arrived in.
   */
  lemma ArrivalOrderIrrelevant(s: seq<Piece>, t: seq<Piece>)
    requires DistinctIndices(s)
    requires multiset(s) == multiset(t)
    ensures SortByIndex(s) == SortByIndex(t)
    ensures Concat(SortByIndex(s)) == Concat(SortByIndex(t))
  {
    SortDistinctIsStrict(s);
    SortRecoversStrictOrder(t, SortByIndex(s));
  }

  // ---------------------------------------------------------------------------
  // Pieces numbered 0 .. n-1
  // ---------------------------------------------------------------------------

  /** The chunks of a message laid out at indices 0, 1, ..., in order. */
  function Numbered(chunks: seq<string>): (r: seq<Piece>)
    ensures |r| == |chunks|
    ensures forall i :: 0 <= i < |r| ==> r[i] == (i, chunks[i])
  {
    seq(|chunks|, i requires 0 <= i < |chunks| => (i, chunks[i]))
  }

  /** Lists each of 0 .. n-1 exactly once: an arrival order for an n-fragment message. */
  predicate IsArrivalOrder(perm: seq<nat>, n: nat) {
    && |perm| == n
    && (forall j :: 0 <= j < n ==> perm[j] < n)
    && (forall j, k :: 0 <= j < k < n ==> perm[j] != perm[k])
    && (forall i :: 0 <= i < n ==> i in perm)
  }

  /** The chunks as they arrive in the order `perm`. */
  function Arrived(chunks: seq<string>, perm: seq<nat>): (r: seq<Piece>)
    requires IsArrivalOrder(perm, |chunks|)
    ensures |r| == |chunks|
    ensures forall j :: 0 <= j < |r| ==> r[j] == (perm[j] as int, chunks[perm[j]])
  {
    seq(|chunks|, j requires 0 <= j < |chunks| => (perm[j] as int, chunks[perm[j]]))
  }

  lemma {:induction false} DupFreeCounts(s: seq<Piece>, e: Piece)
    requires forall i, j :: 0 <= i < j < |s| ==> s[i] != s[j]
    ensures multiset(s)[e] == if e in s then 1 else 0
    decreases |s|
  {
    if |s| > 0 {
      var init := s[..|s| - 1];
      DupFreeCounts(init, e);
      assert s == init + [s[|s| - 1]];
      forall i | 0 <= i < |init|
        ensures init[i] != s[|s| - 1]
      {
        assert s[i] == init[i];
      }
    }
  }

  /** Whatever the arrival order, sorting puts the chunks back at 0, 1, .... */
  lemma SortArrived(chunks: seq<string>, perm: seq<nat>)
    requires IsArrivalOrder(perm, |chunks|)
    ensures SortByIndex(Arrived(chunks, perm)) == Numbered(chunks)
  {
    var a := Arrived(chunks, perm);
    var b := Numbered(chunks);
    forall e: Piece
      ensures multiset(a)[e] == multiset(b)[e]
    {
      DupFreeCounts(a, e);
      DupFreeCounts(b, e);
      if e in b {
        var i :| 0 <= i < |b| && b[i] == e;
        assert i in perm;
        var j :| 0 <= j < |perm| && perm[j] == i;
        assert a[j] == e;
      }
      if e in a {
        var j :| 0 <= j < |a| && a[j] == e;
        assert b[perm[j]] == e;
      }
    }
    assert multiset(a) == multiset(b);
    SortRecoversStrictOrder(a, b);
  }
}

=== FILE: outbound.dfy ===
/**
  The sending half of the channel: one pass of the message loop in `launch`.
  The hex ciphertext of a message is cut into chunks small enough that each
  query name stays inside the DNS limits of section 2.3.4 of RFC 1035
  (labels of at most 63 octets; the program uses 253 characters for the
  whole textual name), and one query name is produced per chunk.
  Sending a query is modelled as emitting its name; the resolver, its
  answers and its errors are outside the model.
 */
module Outbound {
  import opened PyText
  import opened Identity

  /** The program's bound on a whole name, in characters. */
  const NameBudget := 253
  /** The DNS bound on one label. */
  const LabelLimit := 63
  /** How much the chunk size drops per adjustment. */
  const ShrinkStep := 5
  /** Below this chunk size the operator is warned. */
  const LowWater := 15

  /**
    The projected name the chunk size is checked against: the index and
    total are stood in for by `99` and `1000`, and the chunk by nothing.
   */
  function Projection(idText: string, seqid: nat, domain: string): string {
    idText + "." + IntToStr(seqid) + ".99.1000.." + domain
  }

  /** The loop's exit test: a chunk of `limit` characters fits next to `overhead`. */
  predicate Fits(overhead: int, limit: int) {
    overhead + limit < NameBudget && limit <= LabelLimit
  }

  /** How far `limit` is from fitting; positive exactly while the loop keeps going. */
  function Excess(overhead: int, limit: int): int {
    if limit - LabelLimit > overhead + limit - (NameBudget - 1)
    then limit - LabelLimit
    else overhead + limit - (NameBudget - 1)
  }

  /** Chunk size after adjustment, and whether the low-size warning was printed. */
  datatype Fit = Fit(limit: int, warned: bool)

  /**
    The adjustment loop: drop the chunk size by 5 until it fits, warning
    each time the new size is under 15. The result is the largest size
    reachable from `limit` in steps of 5 that fits.
   */
  function Shrink(overhead: nat, limit: int): (r: Fit)
    ensures Fits(overhead, r.limit)
    ensures r.limit <= limit && (limit - r.limit) % ShrinkStep == 0
    ensures r.limit == limit <==> Fits(overhead, limit)
    ensures r.limit < limit ==> !Fits(overhead, r.limit + ShrinkStep)
    ensures r.warned <==> r.limit < limit && r.limit < LowWater
    decreases Excess(overhead, limit)
  {
    if overhead + limit >= NameBudget || limit > LabelLimit then
      var next := Shrink(overhead, limit - ShrinkStep);
      Fit(next.limit, next.warned || limit - ShrinkStep < LowWater)
    else
      Fit(limit, false)
  }

  /**
    `[ct[i:i+limit] for i in range(0, len(ct), limit)]`. A negative step
    gives an empty range; a zero step raises, so the caller never asks.
   */
  function Chunks(ct: string, limit: int): (r: seq<string>)
    requires limit != 0
    ensures limit < 0 ==> r == []
    ensures limit > 0 ==> (r == [] <==> |ct| == 0)
    decreases |ct|
  {
    if limit < 0 || |ct| == 0 then []
    else if |ct| <= limit then [ct]
    else [ct[..limit]] + Chunks(ct[limit..], limit)
  }

  /** With a positive limit the chunks join back to the ciphertext. */
  lemma {:induction false} ChunksJoin(ct: string, limit: int)
    requires limit > 0
    ensures Flatten(Chunks(ct, limit)) == ct
    decreases |ct|
  {
    if |ct| > limit {
      var rest := Chunks(ct[limit..], limit);
      ChunksJoin(ct[limit..], limit);
      assert Chunks(ct, limit) == [ct[..limit]] + rest;
      assert Flatten([ct[..limit]] + rest) == ct[..limit] + Flatten(rest);
      assert ct == ct[..limit] + ct[limit..];
    } else if |ct| > 0 {
      assert Chunks(ct, limit) == [ct];
      assert Flatten([ct]) == ct + Flatten([]);
    }
  }

  /** Every chunk is non-empty and at most `limit` long; all but the last are exactly `limit`. */
  lemma {:induction false} ChunkSizes(ct: string, limit: int, k: nat)
    requires limit > 0
    requires k < |Chunks(ct, limit)|
    ensures 0 < |Chunks(ct, limit)[k]| <= limit
    ensures k < |Chunks(ct, limit)| - 1 ==> |Chunks(ct, limit)[k]| == limit
    decreases |ct|
  {
    if k > 0 {
      ChunkSizes(ct[limit..], limit, k - 1);
    }
  }

  /** A message of `len` characters takes ceil(len / limit) chunks. */
  lemma {:induction false} ChunkCount(ct: string, limit: int)
    requires limit > 0
    ensures |Chunks(ct, limit)| == (|ct| + limit - 1) / limit
    decreases |ct|
  {
    var a := |ct| - 1;
    if |ct| == 0 {
      DivOfSmall(limit - 1, limit);
    } else if |ct| <= limit {
      assert Chunks(ct, limit) == [ct];
      DivOfSmall(a, limit);
      DivShift(a, limit);
    } else {
      assert Chunks(ct, limit) == [ct[..limit]] + Chunks(ct[limit..], limit);
      ChunkCount(ct[limit..], limit);
      assert |ct[limit..]| + limit - 1 == a;
      DivShift(a, limit);
    }
  }

  lemma DivOfSmall(a: int, c: int)
    requires 0 <= a < c
    ensures a / c == 0
  {
    var q, m := a / c, a % c;
    assert a == q * c + m && 0 <= m < c;
    if q > 0 {
      MulMono(1, q, c);
      assert false;
    } else if q < 0 {
      MulMono(q, -1, c);
      assert false;
    }
  }

  lemma DivShift(a: int, c: int)
    requires c > 0
    ensures (a + c) / c == a / c + 1
  {
    var q, m := a / c, a % c;
    assert a == q * c + m && 0 <= m < c;
    var q', m' := (a + c) / c, (a + c) % c;
    assert a + c == q' * c + m' && 0 <= m' < c;
    MulSucc(q + 1, c);
    assert a + c == (q + 1) * c + m;
    if q' > q + 1 {
      MulMono(q + 2, q', c);
      MulSucc(q + 2, c);
      assert false;
    } else if q' < q + 1 {
      MulMono(q', q, c);
      assert false;
    }
  }

  lemma MulMono(a: int, b: int, c: int)
    requires a <= b && c > 0
    ensures a * c <= b * c
  {
  }

  /** The chunks written back to back. */
  function Flatten(chunks: seq<string>): string
    decreases |chunks|
  {
    if |chunks| == 0 then "" else chunks[0] + Flatten(chunks[1..])
  }

  function Min(a: int, b: int): int {
    if a <= b then a else b
  }

  /** Where chunk `k` starts, counted without multiplication. */
  function Offset(k: nat, limit: nat): nat {
    if k == 0 then 0 else Offset(k - 1, limit) + limit
  }

  lemma {:induction false} OffsetIsProduct(k: nat, limit: nat)
    ensures Offset(k, limit) == k * limit
  {
    if k > 0 {
      OffsetIsProduct(k - 1, limit);
      MulSucc(k, limit);
    }
  }

  lemma SliceShift(s: string, d: nat, p: nat, q: nat)
    requires d <= |s| && p <= q <= |s| - d
    ensures s[d..][p .. q] == s[p + d .. q + d]
  {
  }

  /** The first chunk is the first `limit` characters, or the whole text when shorter. */
  lemma ChunkFirst(ct: string, limit: int)
    requires limit > 0 && |ct| > 0
    ensures |Chunks(ct, limit)| > 0
    ensures Offset(0, limit) == 0
    ensures Chunks(ct, limit)[0] == ct[Offset(0, limit) .. Min(Offset(0, limit) + limit, |ct|)]
  {
    assert Offset(0, limit) == 0;
    if |ct| <= limit {
      assert Chunks(ct, limit) == [ct];
      assert ct[0 .. |ct|] == ct;
    } else {
      assert Chunks(ct, limit) == [ct[..limit]] + Chunks(ct[limit..], limit);
    }
  }

  /** Past the first, chunk `k` of the text is chunk `k - 1` of what follows the first chunk. */
  lemma ChunkNext(ct: string, limit: int, k: nat)
    requires limit > 0 && |ct| > limit && 0 < k < |Chunks(ct, limit)|
    ensures k - 1 < |Chunks(ct[limit..], limit)|
    ensures Chunks(ct, limit)[k] == Chunks(ct[limit..], limit)[k - 1]
  {
    assert Chunks(ct, limit) == [ct[..limit]] + Chunks(ct[limit..], limit);
  }

  /** A window of the text after the first `limit` characters, seen from the start of the text. */
  lemma WindowShift(ct: string, limit: int, k: nat)
    requires limit > 0 && |ct| > limit && k > 0
    requires Offset(k - 1, limit) < |ct[limit..]|
    ensures Offset(k, limit) < |ct|
    ensures ct[limit..][Offset(k - 1, limit) .. Min(Offset(k - 1, limit) + limit, |ct[limit..]|)]
         == ct[Offset(k, limit) .. Min(Offset(k, limit) + limit, |ct|)]
  {
    var p := Offset(k - 1, limit);
    var q := Min(p + limit, |ct| - limit);
    assert Offset(k, limit) == p + limit;
    assert Min(p + limit + limit, |ct|) == q + limit;
    SliceShift(ct, limit, p, q);
  }

  /** Chunk `k` is the window of at most `limit` characters starting at `Offset(k, limit)`. */
  lemma {:induction false} ChunkWindow(ct: string, limit: int, k: nat)
    requires limit > 0
    requires k < |Chunks(ct, limit)|
    ensures Offset(k, limit) < |ct|
    ensures Chunks(ct, limit)[k] == ct[Offset(k, limit) .. Min(Offset(k, limit) + limit, |ct|)]
    decreases |ct|
  {
    if k == 0 {
      assert |ct| > 0;
      ChunkFirst(ct, limit);
    } else {
      assert |ct| > limit;
      ChunkNext(ct, limit, k);
      ChunkWindow(ct[limit..], limit, k - 1);
      WindowShift(ct, limit, k);
    }
  }

  /** The k-th chunk is the slice the comprehension takes at `i = k * limit`. */
  lemma {:induction false} ChunkAt(ct: string, limit: int, k: nat)
    requires limit > 0
    requires k < |Chunks(ct, limit)|
    ensures k * limit < |ct|
    ensures Chunks(ct, limit)[k] == ct[k * limit .. Min(k * limit + limit, |ct|)]
    decreases |ct|
  {
    ChunkWindow(ct, limit, k);
    OffsetIsProduct(k, limit);
  }

  lemma MulSucc(k: int, l: int)
    ensures k * l == (k - 1) * l + l
  {
  }

  /** Chunks of lower-case hex are lower-case hex, so they hold no dot. */
  lemma ChunkIsHex(ct: string, limit: int, k: nat)
    requires limit > 0 && IsLowerHex(ct)
    requires k < |Chunks(ct, limit)|
    ensures IsLowerHex(Chunks(ct, limit)[k])
    ensures '.' !in Chunks(ct, limit)[k]
  {
    ChunkAt(ct, limit, k);
  }

  /** One query name: `myid.seqid.seqno.TN.chunk.domain`. */
  function BuildName(idText: string, seqid: nat, seqno: nat, total: nat, chunk: string, domain: string): string {
    Join(NameParts(idText, seqid, seqno, total, chunk, domain))
  }

  function NameParts(idText: string, seqid: nat, seqno: nat, total: nat, chunk: string, domain: string): seq<string> {
    [idText, IntToStr(seqid), IntToStr(seqno), IntToStr(total), chunk, domain]
  }

  /** The sender's state carried from message to message. */
  datatype Session = Session(id: OwnId, domain: string, seqid: nat, charlimit: int)

  /** One pass of the message loop: the names queried, or the `range()` error of a zero step. */
  datatype Dispatch = Sent(names: seq<string>, next: Session, lowWarning: bool) | ZeroStep

  /** Size of the projected name for this session. */
  function Overhead(s: Session): nat {
    |Projection(IdText(s.id), s.seqid, s.domain)|
  }

  /** The adjusted chunk size and warning flag for this session. */
  function Adjusted(s: Session): Fit {
    Shrink(Overhead(s), s.charlimit)
  }

  /** The chunks of one message at the adjusted size. */
  function MessageChunks(s: Session, ct: string): seq<string>
    requires Adjusted(s).limit != 0
  {
    Chunks(ct, Adjusted(s).limit)
  }

  /** Sends one ciphertext: adjust the size, chunk, name each chunk, bump the sequence id. */
  function SendMessage(s: Session, ct: string): (r: Dispatch)
    ensures r.ZeroStep? <==> Adjusted(s).limit == 0
    ensures r.Sent? ==> r.next.id == s.id && r.next.domain == s.domain
    ensures r.Sent? ==> r.next.seqid == s.seqid + 1
    ensures r.Sent? ==> r.next.charlimit <= s.charlimit
    ensures r.Sent? ==> Fits(Overhead(s), r.next.charlimit)
    ensures r.Sent? && r.next.charlimit > 0 ==>
              |r.names| == (|ct| + r.next.charlimit - 1) / r.next.charlimit
    ensures r.Sent? && (r.next.charlimit < 0 || |ct| == 0) ==> r.names == []
    ensures r.Sent? ==> (r.lowWarning <==> r.next.charlimit < s.charlimit && r.next.charlimit < LowWater)
  {
    var fit := Adjusted(s);
    if fit.limit == 0 then ZeroStep
    else
      var chunks := Chunks(ct, fit.limit);
      var total := |chunks|;
      assert fit.limit > 0 ==> total == (|ct| + fit.limit - 1) / fit.limit by {
        if fit.limit > 0 {
          ChunkCount(ct, fit.limit);
        }
      }
      var names := seq(total, k requires 0 <= k < total =>
                         BuildName(IdText(s.id), s.seqid, k, total, chunks[k], s.domain));
      Sent(names, s.(seqid := s.seqid + 1, charlimit := fit.limit), fit.warned)
  }

  /**
    The k-th name of a message carries the sender id, the sequence id, k,
    the total and the k-th chunk as its first five labels, then the domain.
   */
  lemma {:induction false} SentNameLabels(s: Session, ct: string, k: nat)
    requires SendMessage(s, ct).Sent?
    requires k < |SendMessage(s, ct).names|
    requires '.' !in IdText(s.id) && IsLowerHex(ct)
    ensures Adjusted(s).limit > 0
    ensures Split(SendMessage(s, ct).names[k])
         == [IdText(s.id), IntToStr(s.seqid), IntToStr(k),
             IntToStr(|SendMessage(s, ct).names|), MessageChunks(s, ct)[k]]
            + Split(s.domain)
  {
    var lim := Adjusted(s).limit;
    var chunks := Chunks(ct, lim);
    var n := |chunks|;
    ChunkIsHex(ct, lim, k);
    NatToStrDotFree(s.seqid);
    NatToStrDotFree(k);
    NatToStrDotFree(n);
    var parts := NameParts(IdText(s.id), s.seqid, k, n, chunks[k], s.domain);
    SplitJoin(parts);
    assert parts[..5] == [IdText(s.id), IntToStr(s.seqid), IntToStr(k), IntToStr(n), chunks[k]];
  }

  /**
    Every name of a message of at most 999 chunks stays under 253
    characters, and its chunk label within 63: the projection reserves six
    digits for index and total.
   */
  lemma NameWithinBudget(s: Session, ct: string, k: nat)
    requires SendMessage(s, ct).Sent?
    requires k < |SendMessage(s, ct).names| <= 999
    ensures |MessageChunks(s, ct)[k]| <= LabelLimit
    ensures |SendMessage(s, ct).names[k]| < NameBudget
  {
    var lim := Adjusted(s).limit;
    assert lim > 0;
    var chunks := Chunks(ct, lim);
    var n := |chunks|;
    ChunkSizes(ct, lim, k);
    NatToStrShort(k);
    NatToStrShort(n);
    var parts := NameParts(IdText(s.id), s.seqid, k, n, chunks[k], s.domain);
    assert SendMessage(s, ct).names[k] == Join(parts);
    JoinLength(parts);
    var proj := Projection(IdText(s.id), s.seqid, s.domain);
    assert |proj| == |IdText(s.id)| + |IntToStr(s.seqid)| + |s.domain| + 11;
    assert TotalLength(parts[5..]) == |s.domain|;
    assert TotalLength(parts[4..]) == |chunks[k]| + TotalLength(parts[5..]);
    assert TotalLength(parts[3..]) == |IntToStr(n)| + TotalLength(parts[4..]);
    assert TotalLength(parts[2..]) == |IntToStr(k)| + TotalLength(parts[3..]);
    assert TotalLength(parts[1..]) == |IntToStr(s.seqid)| + TotalLength(parts[2..]);
    assert TotalLength(parts) == |IdText(s.id)| + TotalLength(parts[1..]);
  }

  /** The chunks of a sent message put back together are the ciphertext. */
  lemma SentChunksRebuild(s: Session, ct: string)
    requires SendMessage(s, ct).Sent? && Adjusted(s).limit > 0
    ensures Flatten(MessageChunks(s, ct)) == ct
    ensures |MessageChunks(s, ct)| == |SendMessage(s, ct).names|
  {
    ChunksJoin(ct, Adjusted(s).limit);
  }

  // ---------------------------------------------------------------------------
  // The query loop
  // ---------------------------------------------------------------------------

  /**
    The names the resolver is asked for, as the query loop is written: with
    the debug flag set, the trace line adds text to the `None` that `print`
    returns, the `TypeError` is swallowed by the bare `except`, and the
    query after it is skipped.
   */
  function QueriesIssued(debug: bool, names: seq<string>): (r: seq<string>)
    ensures |r| <= |names|
    decreases |names|
  {
    if |names| == 0 then []
    else (if debug then [] else [names[0]]) + QueriesIssued(debug, names[1..])
  }

  /** As written, a debugging session queries nothing, and a quiet one queries every name in order. */
  lemma {:induction false} DebugQueriesNothing(debug: bool, names: seq<string>)
    ensures debug ==> QueriesIssued(debug, names) == []
    ensures !debug ==> QueriesIssued(debug, names) == names
    decreases |names|
  {
    if |names| > 0 {
      DebugQueriesNothing(debug, names[1..]);
    }
  }

  /**
    The query loop with the trace line printed on its own: every name is
    queried, in order, debug or not, so a debugging session sends what a
    quiet one sends as written.
   */
  function QueriesIssuedFixed(debug: bool, names: seq<string>): (r: seq<string>)
    ensures r == QueriesIssued(false, names)
  {
    DebugQueriesNothing(false, names);
    names
  }
}

=== FILE: pydict.dfy ===
/**
  A Python `dict` from text to text, as the listener keeps the fragments of
  one message. Python dicts remember insertion order, and that order decides
  how `sorted` breaks ties, so the dict is an association list: a new key is
  appended, an existing key keeps its place and takes the new value.
 */
module PyDict {
  import opened Wrappers

  type Dict = seq<(string, string)>

  function Keys(d: Dict): set<string>
    decreases |d|
  {
    if |d| == 0 then {} else {d[0].0} + Keys(d[1..])
  }

  /** `d.get(k)`. */
  function Get(d: Dict, k: string): Option<string>
    decreases |d|
  {
    if |d| == 0 then None
    else if d[0].0 == k then Some(d[0].1)
    else Get(d[1..], k)
  }

  /** No key occurs twice: every dict built with `Put` has this shape. */
  predicate DistinctKeys(d: Dict) {
    forall i, j :: 0 <= i < j < |d| ==> d[i].0 != d[j].0
  }

  lemma {:induction false} KeysMembers(d: Dict, k: string)
    ensures k in Keys(d) <==> exists i :: 0 <= i < |d| && d[i].0 == k
    decreases |d|
  {
    if |d| > 0 {
      KeysMembers(d[1..], k);
      if k in Keys(d[1..]) {
        var i :| 0 <= i < |d[1..]| && d[1..][i].0 == k;
        assert d[i + 1].0 == k;
      }
      if exists i :: 0 <= i < |d| && d[i].0 == k {
        var i :| 0 <= i < |d| && d[i].0 == k;
        if i > 0 {
          assert d[1..][i - 1].0 == k;
        }
      }
    }
  }

  /** `d[k] = v`. */
  function Put(d: Dict, k: string, v: string): (r: Dict)
    ensures Keys(r) == Keys(d) + {k}
    ensures k in Keys(d) ==> |r| == |d|
    ensures k !in Keys(d) ==> r == d + [(k, v)]
    ensures Get(r, k) == Some(v)
    ensures forall k' :: k' != k ==> Get(r, k') == Get(d, k')
    ensures forall i :: 0 <= i < |d| ==> r[i].0 == d[i].0
    decreases |d|
  {
    if |d| == 0 then [(k, v)]
    else if d[0].0 == k then [(k, v)] + d[1..]
    else [d[0]] + Put(d[1..], k, v)
  }

  /** A pair whose key differs from every key of a dict without repeats can head it. */
  lemma ConsDistinct(x: (string, string), d: Dict)
    requires DistinctKeys(d)
    requires forall j :: 0 <= j < |d| ==> x.0 != d[j].0
    ensures DistinctKeys([x] + d)
  {
    var r := [x] + d;
    forall i, j | 0 <= i < j < |r|
      ensures r[i].0 != r[j].0
    {
      assert r[j] == d[j - 1];
      if i > 0 {
        assert r[i] == d[i - 1];
      }
    }
  }

  lemma {:induction false} PutKeepsDistinct(d: Dict, k: string, v: string)
    requires DistinctKeys(d)
    ensures DistinctKeys(Put(d, k, v))
    decreases |d|
  {
    if |d| > 0 && d[0].0 == k {
      ConsDistinct((k, v), d[1..]);
    } else if |d| > 0 {
      PutKeepsDistinct(d[1..], k, v);
      var rest := Put(d[1..], k, v);
      forall j | 0 <= j < |rest|
        ensures d[0].0 != rest[j].0
      {
        KeysMembers(rest, rest[j].0);
        KeysMembers(d[1..], rest[j].0);
        assert rest[j].0 in Keys(d[1..]) + {k};
        if rest[j].0 in Keys(d[1..]) {
          var i :| 0 <= i < |d[1..]| && d[1..][i].0 == rest[j].0;
          assert d[i + 1].0 == rest[j].0;
        }
      }
      ConsDistinct(d[0], rest);
    }
  }

  /** With distinct keys the list is as long as its key set: `len(d)` counts keys. */
  lemma {:induction false} DistinctKeysCount(d: Dict)
    requires DistinctKeys(d)
    ensures |Keys(d)| == |d|
    decreases |d|
  {
    if |d| > 0 {
      var tail := d[1..];
      assert DistinctKeys(tail) by {
        forall i, j | 0 <= i < j < |tail|
          ensures tail[i].0 != tail[j].0
        {
          assert tail[i] == d[i + 1] && tail[j] == d[j + 1];
        }
      }
      DistinctKeysCount(tail);
      forall i | 0 <= i < |tail|
        ensures tail[i].0 != d[0].0
      {
        assert tail[i] == d[i + 1];
      }
      KeysMembers(tail, d[0].0);
      assert Keys(d) == {d[0].0} + Keys(tail);
    }
  }
}

=== FILE: pytext.dfy ===
/**
  The handful of Python string operations the chat protocol relies on:
  `str.split('.')`, `str(n)` for integers, `int(s)` on text, and the
  `re.search("^\d+$", s)` test the listener applies to the sequence id.
  Only ASCII is modelled: Python's `\d`, `int()` and whitespace stripping
  also accept other Unicode digits and spaces.
 */
module PyText {
  import opened Wrappers

  predicate IsDigit(c: char) {
    '0' <= c <= '9'
  }

  function DigitValue(c: char): nat
    requires IsDigit(c)
  {
    c as int - '0' as int
  }

  function DigitChar(d: nat): (c: char)
    requires d < 10
    ensures IsDigit(c) && DigitValue(c) == d
  {
    ('0' as int + d) as char
  }

  /** A non-empty run of ASCII digits. */
  predicate AllDigits(s: string) {
    |s| > 0 && forall i :: 0 <= i < |s| ==> IsDigit(s[i])
  }

  /** `re.search("^\d+$", s)` finds a match: `$` also matches just before a final newline. */
  predicate MatchesDigitPattern(s: string) {
    AllDigits(s) || (|s| >= 2 && s[|s| - 1] == '\n' && AllDigits(s[..|s| - 1]))
  }

  /** Lower-case Base16 text, as `binascii.hexlify(...).decode()` produces. */
  predicate IsLowerHex(s: string) {
    forall i :: 0 <= i < |s| ==> IsDigit(s[i]) || 'a' <= s[i] <= 'f'
  }

  // ---------------------------------------------------------------------------
  // str.split('.') and its inverse
  // ---------------------------------------------------------------------------

  /** Python's `s.split('.')`: never empty; empty pieces are kept. */
  function Split(s: string): (r: seq<string>)
    ensures |r| >= 1
    decreases |s|
  {
    if |s| == 0 then [""]
    else if s[0] == '.' then [""] + Split(s[1..])
    else
      var rest := Split(s[1..]);
      [[s[0]] + rest[0]] + rest[1..]
  }

  /** `'.'.join(parts)`. */
  function Join(parts: seq<string>): string
    requires |parts| >= 1
    decreases |parts|
  {
    if |parts| == 1 then parts[0] else parts[0] + "." + Join(parts[1..])
  }

  /** Joining the pieces of a split gives back the text, and no piece holds a dot. */
  lemma {:induction false} JoinSplit(s: string)
    ensures Join(Split(s)) == s
    decreases |s|
  {
    if |s| == 0 {
    } else if s[0] == '.' {
      JoinSplit(s[1..]);
      assert Split(s) == [""] + Split(s[1..]);
      assert s == "." + s[1..];
    } else {
      JoinSplit(s[1..]);
      var rest := Split(s[1..]);
      assert Split(s) == [[s[0]] + rest[0]] + rest[1..];
      if |rest| == 1 {
        assert Join(Split(s)) == [s[0]] + rest[0];
      } else {
        assert Join(Split(s)) == [s[0]] + rest[0] + "." + Join(rest[1..]);
        assert Join(rest) == rest[0] + "." + Join(rest[1..]);
      }
      assert s == [s[0]] + s[1..];
    }
  }

  /** No label of a split holds a dot. */
  lemma {:induction false} SplitDotFree(s: string)
    ensures forall i :: 0 <= i < |Split(s)| ==> '.' !in Split(s)[i]
    decreases |s|
  {
    if |s| > 0 {
      SplitDotFree(s[1..]);
      var rest := Split(s[1..]);
      if s[0] != '.' {
        assert Split(s) == [[s[0]] + rest[0]] + rest[1..];
        assert '.' !in [s[0]] + rest[0];
      }
    }
  }

  /** A trailing dot adds one empty label. */
  lemma {:induction false} SplitTrailingDot(s: string)
    ensures Split(s + ".") == Split(s) + [""]
    decreases |s|
  {
    if |s| > 0 {
      SplitTrailingDot(s[1..]);
      assert (s + ".")[1..] == s[1..] + ".";
    }
  }

  /** A dot-free first label is split off intact; the rest splits on its own. */
  lemma {:induction false} SplitLabel(a: string, b: string)
    requires '.' !in a
    ensures Split(a + "." + b) == [a] + Split(b)
    decreases |a|
  {
    if |a| == 0 {
      assert a + "." + b == "." + b;
      assert ("." + b)[1..] == b;
    } else {
      assert a[0] in a;
      SplitLabel(a[1..], b);
      assert (a + "." + b)[1..] == a[1..] + "." + b;
      assert [a[0]] + a[1..] == a;
    }
  }

  /** Splitting dot-joined labels gives the labels back; the last part splits on its own. */
  lemma {:induction false} SplitJoin(parts: seq<string>)
    requires |parts| >= 1
    requires forall i :: 0 <= i < |parts| - 1 ==> '.' !in parts[i]
    ensures Split(Join(parts)) == parts[..|parts| - 1] + Split(parts[|parts| - 1])
    decreases |parts|
  {
    if |parts| > 1 {
      var tail := parts[1..];
      forall i | 0 <= i < |tail| - 1
        ensures '.' !in tail[i]
      {
        assert tail[i] == parts[i + 1];
      }
      assert Join(parts) == parts[0] + "." + Join(tail);
      SplitJoin(tail);
      SplitLabel(parts[0], Join(tail));
      assert parts[|parts| - 1] == tail[|tail| - 1];
      assert parts[..|parts| - 1] == [parts[0]] + tail[..|tail| - 1];
    }
  }

  /** A joined name is as long as its parts plus one dot between each two. */
  lemma {:induction false} JoinLength(parts: seq<string>)
    requires |parts| >= 1
    ensures |Join(parts)| == TotalLength(parts) + |parts| - 1
    decreases |parts|
  {
    if |parts| > 1 {
      JoinLength(parts[1..]);
    }
  }

  function TotalLength(parts: seq<string>): nat
    decreases |parts|
  {
    if |parts| == 0 then 0 else |parts[0]| + TotalLength(parts[1..])
  }

  // ---------------------------------------------------------------------------
  // str(n) for integers
  // ---------------------------------------------------------------------------

  /** Decimal digits of a natural number, without leading zeros. */
  function NatToStr(n: nat): string
    decreases n
  {
    if n < 10 then [DigitChar(n)] else NatToStr(n / 10) + [DigitChar(n % 10)]
  }

  /** Python's `str(n)`. */
  function IntToStr(n: int): string {
    if n < 0 then "-" + NatToStr(-n) else NatToStr(n)
  }

  lemma {:induction false} NatToStrDigits(n: nat)
    ensures AllDigits(NatToStr(n))
    decreases n
  {
    if n >= 10 {
      NatToStrDigits(n / 10);
    }
  }

  /** Numbers below 1000 print in at most three characters. */
  lemma {:induction false} NatToStrShort(n: nat)
    requires n <= 999
    ensures |NatToStr(n)| <= 3
  {
    if n >= 10 {
      assert NatToStr(n) == NatToStr(n / 10) + [DigitChar(n % 10)];
      if n / 10 >= 10 {
        assert n / 10 / 10 < 10;
        assert NatToStr(n / 10) == NatToStr(n / 10 / 10) + [DigitChar(n / 10 % 10)];
      }
    }
  }

  lemma NatToStrDotFree(n: nat)
    ensures '.' !in NatToStr(n)
  {
    NatToStrDigits(n);
  }

  // ---------------------------------------------------------------------------
  // int(s) on text
  // ---------------------------------------------------------------------------

  /** The ASCII characters `int()` strips around a number (`str.isspace()`). */
  predicate IsSpace(c: char) {
    c == ' ' || 9 <= c as int <= 13 || 28 <= c as int <= 31
  }

  function StripLeft(s: string): (r: string)
    decreases |s|
  {
    if |s| > 0 && IsSpace(s[0]) then StripLeft(s[1..]) else s
  }

  function StripRight(s: string): (r: string)
    decreases |s|
  {
    if |s| > 0 && IsSpace(s[|s| - 1]) then StripRight(s[..|s| - 1]) else s
  }

  /** Digits with single underscores between them, as `int()` accepts in base 10. */
  predicate WellFormedDigits(u: string) {
    && |u| > 0
    && IsDigit(u[0])
    && IsDigit(u[|u| - 1])
    && (forall i :: 0 <= i < |u| ==> IsDigit(u[i]) || u[i] == '_')
    && (forall i :: 0 <= i < |u| - 1 ==> !(u[i] == '_' && u[i + 1] == '_'))
  }

  /** Value of a digit string, underscores skipped. */
  function DigitsValue(u: string): nat
    requires forall i :: 0 <= i < |u| ==> IsDigit(u[i]) || u[i] == '_'
    decreases |u|
  {
    if |u| == 0 then 0
    else if u[|u| - 1] == '_' then DigitsValue(u[..|u| - 1])
    else DigitsValue(u[..|u| - 1]) * 10 + DigitValue(u[|u| - 1])
  }

  function ParseUnsigned(u: string): Option<nat> {
    if WellFormedDigits(u) then Some(DigitsValue(u)) else None
  }

  /**
    Python's `int(s)` for a `str`: surrounding whitespace, an optional sign,
    then base-10 digits. `None` stands for the `ValueError` it raises.
   */
  function ParseInt(s: string): Option<int> {
    var t := StripRight(StripLeft(s));
    if |t| > 0 && (t[0] == '+' || t[0] == '-') then
      match ParseUnsigned(t[1..])
      case None => None
      case Some(v) => var x: int := v; Some(if t[0] == '-' then -x else x)
    else
      match ParseUnsigned(t)
      case None => None
      case Some(v) => Some(v)
  }

  lemma {:induction false} DigitsValueOfNat(n: nat)
    ensures forall i :: 0 <= i < |NatToStr(n)| ==> IsDigit(NatToStr(n)[i]) || NatToStr(n)[i] == '_'
    ensures DigitsValue(NatToStr(n)) == n
    decreases n
  {
    NatToStrDigits(n);
    if n >= 10 {
      DigitsValueOfNat(n / 10);
      var s := NatToStr(n);
      assert s[..|s| - 1] == NatToStr(n / 10);
    }
  }

  lemma ParseUnsignedNat(n: nat)
    ensures ParseUnsigned(NatToStr(n)) == Some(n)
  {
    NatToStrDigits(n);
    DigitsValueOfNat(n);
  }

  /** `int(str(n)) == n`. */
  lemma ParseIntToStr(n: int)
    ensures ParseInt(IntToStr(n)) == Some(n)
  {
    var s := IntToStr(n);
    var m: nat := if n < 0 then -n else n;
    NatToStrDigits(m);
    ParseUnsignedNat(m);
    assert !IsSpace(s[0]);
    assert StripLeft(s) == s;
    assert !IsSpace(s[|s| - 1]);
    assert StripRight(s) == s;
    if n < 0 {
      assert s[1..] == NatToStr(m);
    }
  }

  /** Different integers print differently. */
  lemma IntToStrInjective(a: int, b: int)
    requires a != b
    ensures IntToStr(a) != IntToStr(b)
  {
    ParseIntToStr(a);
    ParseIntToStr(b);
  }
}

=== FILE: wrappers.dfy ===
/** Optional values, used for Python operations that may raise. */
module Wrappers {

  datatype Option<+T> = None | Some(value: T)
}
